=== FILE: README.md ===
# DACP core in Dafny

A Dafny model of the Declarative Agent Communication Protocol (DACP) core and its reference agents. It covers:

- **Message protocol** (`protocol.dfy`): parsing an agent response, and recognising, reading and building tool requests, tool results and final responses.
- **Tool registry** (`tools.dfy`): a registry object mapping tool names to tools, `run_tool`, and the built-in `file_writer`, whose path allow-list is the only guard between an agent and the file system.
- **Multi-step workflow agent** (`multistep.dfy`): `MultiStepAgent` keeps one state machine per workflow id. The five-step project analysis, the research workflow and the status view are functions from the workflow's old state to its new state and reply. The agent is a class whose `HandleMessage` updates its table of workflows.
- **YAML-configured agent** (`yamlconfig.dfy`):
  - the logging section of an agent configuration becomes DACP logging settings, with environment overrides;
  - the intelligence section's API keys are resolved from the environment, entry by entry, in a loop;
  - a message is dispatched to the first capability named like its task, in a search loop.
- **Agent code generator** (`oasgen.dfy`): the class name made from an agent's name, the logging-setup lines and the intelligence-configuration lines of the generated code.

Python data are modelled as JSON-like values (`Values.Json`). Dicts are ordered association lists (`Values.Fields`), because insertion order is observable: in `list(d.keys())`, in `repr`, and in the order generated lines come out. Raised exceptions are the `Err` side of `Values.Result`, carrying the exception kind and its message. `str()`/`repr()`, ASCII case mapping, `split`/`join`, subscripting and `os.getenv` are modelled in `pytext.dfy`.

The environment (`os.environ`), the clock (`time.time()` and its formatted stamp) and `json.loads` are parameters.

## Model

| member | source | states |
|---|---|---|
| Protocol.ParseAgentResponse | dacp/protocol.py:3-12 | A dict comes back unchanged. A string whose decoding succeeds comes back as the decoded value. Decoding fails, and any non-string non-dict fails, exactly when the result is an error. That error is a ValueError whose message starts with "Malformed agent response: ". |
| Protocol.IsToolRequest | dacp/protocol.py:14-15 | True exactly when some entry of the message carries the key `tool_request`. |
| Protocol.GetToolRequest | dacp/protocol.py:17-19 | Succeeds iff the message holds a dict `tool_request` with a `name`. It then returns that name and `args`, defaulting to `{}`. Without `tool_request` it raises KeyError('tool_request'). |
| Protocol.WrapToolResult | dacp/protocol.py:21-22 | The wrapper's only key is `tool_result`, whose `name` and `result` are the given ones. |
| Protocol.IsFinalResponse | dacp/protocol.py:24-25 | True exactly when some entry of the message carries the key `final_response`. |
| Protocol.GetFinalResponse | dacp/protocol.py:27-28 | Succeeds iff the message holds `final_response`, and returns that value; otherwise KeyError('final_response'). |
| Protocol.IsToolRequestIgnoresOtherKeys | dacp/protocol.py:14-25 | Setting any key other than `tool_request` leaves `is_tool_request` unchanged. `is_final_response` becomes true only by setting `final_response`. |
| Protocol.WrappedResultIsNeither | dacp/protocol.py:14-25 | A wrapped tool result is neither a tool request nor a final response. |
| Protocol.ToolRequestRoundTrip | dacp/protocol.py:17-19 | A `tool_request` built from a name and args is read back as exactly that pair, wherever it stands among other keys. Missing args read back as `{}`. |
| Tools.AnyPrefixIff | dacp/tools.py:17 | The `any(path.startswith(p) ...)` test holds iff some listed prefix is a prefix of the path. |
| Tools.PathAllowed | dacp/tools.py:16-17 | A path is allowed iff it starts with "./output/" or "/tmp/". |
| Tools.AllowedIsTextual | dacp/tools.py:16-18 | The check is purely textual: extending an allowed path keeps it allowed, and "/tmp/../etc/passwd" passes. "/etc/passwd", "output/a.txt" and "/tmp" are refused. |
| Tools.FileWriter | dacp/tools.py:14-21 | Succeeds iff the path is allowed. Then it makes exactly one write of the content to that path and returns "Written to <path>". Otherwise it raises ValueError("Path not allowed") and writes nothing. |
| Tools.FileWriterTool | dacp/tools.py:11-21 | The keyword-argument call succeeds only when `path` is text and allowed. With text `path` and `content` it is exactly `file_writer` on them. An unexpected or missing argument raises TypeError with no write. A non-text path raises AttributeError (`startswith`) with no write. An allowed path with non-text content opens (truncates) the file and then raises TypeError. No write it ever makes lands outside the allow-list. |
| Tools.WriteBound | dacp/tools.py:14-21 | The body of `file_writer` once both arguments are bound, for any Python values: the same outcomes, branch by branch, as above. |
| Tools.FileWriterCall | dacp/tools.py:11-21 | `file_writer(**{"path": p, "content": c})` behaves as `file_writer(p, c)`, whatever the order of the two keys. An allowed path gives "Written to <p>" and one write of `c` to `p`. |
| Tools.ToolRegistry.constructor | dacp/tools.py:3-23 | The registry starts with `file_writer` as its only tool. |
| Tools.ToolRegistry.RegisterTool | dacp/tools.py:5-6 | The tool is stored under its id, replacing any earlier one; every other entry is unchanged. |
| Tools.ToolRegistry.RunTool | dacp/tools.py:8-11 | An unknown id raises ValueError("Unknown tool: <id>") with no effect. A known id runs the registered tool on the arguments. |
| MultiStep.InitialState | examples/multi_step_workflow_demo.py:31-37 | A new workflow is at step 0, with no completed steps and no data, and starts at the current time. |
| MultiStep.StartNext | examples/multi_step_workflow_demo.py:57-60 | Leaving step 0 goes to step 1 and appends "initialization". It stores `project_name` (default "Unknown Project"). Every other data key and the start time are kept. |
| MultiStep.StartProjectAnalysis | examples/multi_step_workflow_demo.py:52-76 | At step 0 the reply asks `file_writer` to write ./projects/<name>/analysis.md. At any other step it behaves as `_continue_workflow`. |
| MultiStep.ContinueNext | examples/multi_step_workflow_demo.py:78-156 | Steps 1-4 advance by one and append that step's label. Step 2 stores `requirements` and step 4 stores `risks`, each the message's `ai_response` or its default. Every other data key is kept. Any other step becomes "completed" with nothing else changed. |
| MultiStep.RequirementsReply | examples/multi_step_workflow_demo.py:82-95 | Succeeds iff a project name is stored, else KeyError('project_name'). On success it is a dict with an `intelligence_request` whose purpose is "requirements_gathering", and no tool request. |
| MultiStep.TechnicalReply | examples/multi_step_workflow_demo.py:97-117 | Succeeds iff the project name and requirements are stored; a missing name gives KeyError('project_name'). On success it requests ./projects/<name>/technical_analysis.md. |
| MultiStep.RiskReply | examples/multi_step_workflow_demo.py:119-132 | Succeeds iff a project name is stored, else KeyError('project_name'). On success it is a dict with an `intelligence_request` whose purpose is "risk_analysis", and no tool request. |
| MultiStep.ReportReply | examples/multi_step_workflow_demo.py:134-152 | Succeeds iff the project name and risks are stored; a missing name gives KeyError('project_name'). On success it requests ./projects/<name>/final_report.md. |
| MultiStep.CompletedReply | examples/multi_step_workflow_demo.py:154-172 | Succeeds iff a project name is stored, else KeyError('project_name'). On success it answers `workflow_status: "completed"` and requests no file. |
| MultiStep.ContinueReply | examples/multi_step_workflow_demo.py:78-172 | Any file a continuation step requests lies under ./projects/. With the needed data stored, step 1 asks the intelligence for "requirements_gathering", step 2 requests technical_analysis.md, step 3 asks for "risk_analysis" and step 4 requests final_report.md. |
| MultiStep.AskIntelligence | examples/multi_step_workflow_demo.py:86-94 | The reply is a dict whose `intelligence_request` is exactly the given prompt and purpose. It carries no tool request and asks for no file. |
| MultiStep.HandleResearchWorkflow | examples/multi_step_workflow_demo.py:174-211 | Step 0 goes to step 1, stores the topic and answers with an `intelligence_request` whose purpose is "research_planning", and no tool request. Step 1 goes to step 2 and stores the outline. It then requests ./research/<topic with spaces as underscores>_outline.md, and fails with AttributeError iff the topic is not text. Any other step answers "completed" and changes nothing. |
| MultiStep.WorkflowStatus | examples/multi_step_workflow_demo.py:213-221 | The status holds the workflow id, the current step, exactly the completed labels and exactly the data keys, in order. It is not a tool request. |
| MultiStep.Dispatch | examples/multi_step_workflow_demo.py:41-50 | A status query changes nothing. An unknown task changes nothing and answers "Unknown task: <task>". Every task except research keeps a workflow on the analysis path. |
| MultiStep.DispatchRoutes | examples/multi_step_workflow_demo.py:41-48 | "analyze_project", "continue_workflow" and "multi_step_research" reach exactly their handlers, run on the workflow's state. "get_workflow_status" answers the status view and keeps the state. |
| MultiStep.Handle | examples/multi_step_workflow_demo.py:25-50 | An unhashable workflow id raises TypeError and changes nothing. Otherwise the table gains that id, if it lacked it, and no other workflow's state changes. |
| MultiStep.MultiStepAgent.constructor | examples/multi_step_workflow_demo.py:21-23 | The agent starts with no workflows and a step counter of 0. |
| MultiStep.MultiStepAgent.HandleMessage | examples/multi_step_workflow_demo.py:25-50 | The new table of workflows and the reply are those of `Handle` on the old table. The step counter is untouched. |
| MultiStep.UnseenWorkflowStartsFresh | examples/multi_step_workflow_demo.py:30-39 | A message for an unseen workflow is handled as if that workflow were at its initial state. |
| MultiStep.SeenWorkflowContinues | examples/multi_step_workflow_demo.py:30-50 | A message for a stored workflow is dispatched on the stored state, and the handler's new state replaces it. "continue_workflow" at step k in 1..4 moves it to step k+1 and appends step k's label. A status query stores the state back unchanged. |
| MultiStep.UnknownTaskKeepsFreshState | examples/multi_step_workflow_demo.py:30-50 | An unknown task on an unseen workflow still leaves a fresh state stored under its id. |
| MultiStep.StepJsonInjective | examples/multi_step_workflow_demo.py:217 | Different steps are reported differently in `current_step`. |
| MultiStep.ContinueKeepsPath | examples/multi_step_workflow_demo.py:78-156 | Continuing keeps the invariant that the completed labels are a prefix of the five analysis labels, as long as the step number. |
| MultiStep.AnalysisStepKeepsPath | examples/multi_step_workflow_demo.py:52-76 | Starting or continuing an analysis keeps that invariant. |
| MultiStep.ResearchLeavesPath | examples/multi_step_workflow_demo.py:178-189 | A fresh workflow is on the analysis path. A research step on the same workflow id moves it off that path: both workflows share one step counter. |
| MultiStep.AnalysisStates | examples/multi_step_workflow_demo.py:57-138 | Five analysis calls from a fresh workflow reach step 5, with all five labels in order and the project name stored. |
| MultiStep.FullAnalysis | examples/multi_step_workflow_demo.py:52-172 | Six analysis calls from a fresh workflow complete it, with all five labels in order, and answer "completed". |
| MultiStep.ContinueWorkflow | examples/multi_step_workflow_demo.py:78-172 | The new state is `ContinueNext` of the old one. The reply fails iff no project name is stored, and then only with KeyError('project_name'). The completion branch answers "completed". Any file requested lies under ./projects/. |
| MultiStep.ContinueSteps | examples/multi_step_workflow_demo.py:78-152 | With a project name stored, step 1 asks the intelligence for "requirements_gathering", step 2 requests ./projects/<name>/technical_analysis.md, step 3 asks for "risk_analysis" and step 4 requests ./projects/<name>/final_report.md. |
| MultiStep.CompletedIsFinal | examples/multi_step_workflow_demo.py:154-211 | A completed workflow is left unchanged by every handler. |
| MultiStep.ContinueFromStartFails | examples/multi_step_workflow_demo.py:154-163 | Continuing a workflow that never started marks it completed, then raises KeyError('project_name'). |
| MultiStep.WorkDirsRefused | dacp/tools.py:16-18 | No path under ./projects/ or ./research/ is allowed by `file_writer`. |
| MultiStep.EmittedWritesRefused | examples/multi_step_workflow_demo.py:41-205 | Every file the agent asks to write lies under ./projects/ or ./research/, so `file_writer` refuses each one with "Path not allowed". |
| MultiStep.StartPaths | examples/multi_step_workflow_demo.py:69 | The analysis start only requests paths under ./projects/. |
| MultiStep.ResearchPaths | examples/multi_step_workflow_demo.py:201 | The research workflow only requests paths under ./research/. |
| YamlConfig.Setting | examples/yaml_config_interface.py:67-80 | Without an override the value is the configured one or the default. With an override, the named variable's value wins when it is set. The value changes only through an override variable that is set. |
| YamlConfig.LogFilePath | examples/yaml_config_interface.py:82-86 | A falsy log file gives no path. A text one gives its normalised path. Any other truthy value raises. Each case holds in both directions. |
| YamlConfig.Processed | examples/yaml_config_interface.py:64-92 | The keys come in this order: level, format_style, log_file only when a path exists, include_timestamp, enabled. Each key holds its value, and `enabled` is True. |
| YamlConfig.ExtractLoggingConfig | examples/yaml_config_interface.py:47-94 | A logging section that is not a dict raises AttributeError (`get`). A disabled section gives exactly `{"enabled": False}`. An enabled one gives `enabled: True` and the configured timestamp flag. |
| YamlConfig.LoggingDefaults | examples/yaml_config_interface.py:57-92 | No logging section, or an empty one, gives level INFO, format emoji, no log file, timestamps on, enabled. |
| YamlConfig.LoggingShape | examples/yaml_config_interface.py:63-94 | An enabled configuration is the processed form of the three resolved settings, the log file's path and the timestamp flag. |
| YamlConfig.EnvReadOnlyThroughOverrides | examples/yaml_config_interface.py:63-80 | Without overrides for the three settings, the environment has no influence. |
| YamlConfig.LevelOverride | examples/yaml_config_interface.py:67-70 | When the level override names a variable that is set, the result's level is that variable's value. |
| YamlConfig.EntryValue | examples/yaml_config_interface.py:154-171 | A `${NAME}` value becomes the variable's value, or None. A key named `*_key`/`api_key` takes KEY, then ENGINE_API_KEY, then its own value. Every other entry is kept. It fails iff the key rule reaches an engine that is not text. |
| YamlConfig.ResolveStep | examples/yaml_config_interface.py:153-171 | One iteration changes only the value at its own position; every key stays in place. |
| YamlConfig.MatchFrom | examples/yaml_config_interface.py:184-186 | A hit is the first capability named like the task. A miss means every capability from the start position has a name and none matches. An error is raised by the first capability that cannot be subscripted with "name"; every capability before it has a name that does not match. |
| YamlConfig.NamesOf | examples/yaml_config_interface.py:188 | Gives each capability's name in order, and succeeds when every capability has one. |
| YamlConfig.Iterate | examples/yaml_config_interface.py:184 | A list iterates over its items, a dict over its keys as strings, in order, and a string over its one-character strings. Iteration raises TypeError "'<type>' object is not iterable" exactly for every other kind of value. |
| YamlConfig.ConfigurableAgent.constructor | examples/yaml_config_interface.py:104-128 | It stores the configuration, its logging settings and its capabilities (default `[]`). The intelligence section is loaded only when the logging settings could be extracted. |
| YamlConfig.ConfigurableAgent.LoadIntelligenceConfig | examples/yaml_config_interface.py:148-173 | The loop's result is the entry-by-entry resolution of a copy of the section. The agent's configuration is not modified. |
| YamlConfig.ConfigurableAgent.HandleMessage | examples/yaml_config_interface.py:175-189 | The search loop answers exactly as `Respond` specifies. |
| YamlConfig.ResolveKeepsKeys | examples/yaml_config_interface.py:153-171 | Resolution never adds, drops or moves a key, and leaves earlier entries alone. |
| YamlConfig.LoadIntelligence | examples/yaml_config_interface.py:148-173 | A list-valued section raises AttributeError (`items`), and any other non-dict raises AttributeError (`copy`). A loaded section is a dict with the same keys, in the same order, as the configured one. |
| YamlConfig.ResolvedEntries | examples/yaml_config_interface.py:153-173 | Resolution succeeds iff every entry resolves. Each entry then holds its resolved value under the same key. |
| YamlConfig.LoadedEntries | examples/yaml_config_interface.py:148-173 | The loaded section, entry by entry: each value is `EntryValue` of the configured entry. |
| YamlConfig.EngineIsNoKeyName | examples/yaml_config_interface.py:162 | The `engine` entry is never treated as an API key. |
| YamlConfig.EngineResolvedFirst | examples/yaml_config_interface.py:153-171 | An unset `${...}` engine that stands before an API key becomes None first. The key's fallback then raises AttributeError on `None.upper`. |
| YamlConfig.EngineResolvedLast | examples/yaml_config_interface.py:153-171 | When the same engine stands after the key, the key's fallback reads the unresolved `${...}` text, upper-cased, with `_API_KEY` appended. |
| YamlConfig.MatchFound | examples/yaml_config_interface.py:184-186 | If some capability matches and all before it have names, the search hits, at or before that capability. |
| YamlConfig.MatchRaises | examples/yaml_config_interface.py:184-185 | A capability without a name, with only named, non-matching capabilities before it, makes the search raise that capability's error. |
| YamlConfig.Respond | examples/yaml_config_interface.py:175-189 | A non-iterable capabilities value raises its TypeError. A success is either the reply of the first capability named like the task, where every capability before it is named and does not match, or, when every capability has a name and none matches, "Unknown task" listing all names. Any other failure is the error of the first capability that cannot be subscripted with "name", met before any match. |
| YamlConfig.RespondCases | examples/yaml_config_interface.py:181-207 | A matching capability gives "Executed capability '<task>' with message: <message>". Otherwise, with all capabilities named, the reply is "Unknown task" listing every name. |
| YamlConfig.RespondRaises | examples/yaml_config_interface.py:184-185 | A capability that cannot be subscripted with "name", met before any match, makes dispatch raise exactly its error. |
| YamlConfig.UnnamedBeforeMatchRaises | examples/yaml_config_interface.py:184-185 | Capabilities `[{}, {"name": "t"}]` make task "t" raise KeyError('name'), although a later capability matches. |
| YamlConfig.DictOrTextCapabilitiesRaise | examples/yaml_config_interface.py:184-185 | Capabilities given as a non-empty dict or string raise TypeError("string indices must be integers, not 'str'") on every message: each item is a string. |
| YamlConfig.NotIterable | examples/yaml_config_interface.py:184 | Capabilities that are None, a number or a boolean make every message raise TypeError. |
| OasGenerator.Kept | examples/oas_generator_with_logging.py:107-111 | Only alphanumeric words survive into the class name. |
| OasGenerator.JoinAlnum | examples/oas_generator_with_logging.py:107-111 | Joining alphanumeric words yields only alphanumeric characters. |
| OasGenerator.ToClassName | examples/oas_generator_with_logging.py:104-112 | The class name always ends in "Agent" and is purely alphanumeric. It is the cleaned name when that already ends in "Agent", and the cleaned name plus "Agent" otherwise. |
| OasGenerator.SeparatorsAlike | examples/oas_generator_with_logging.py:109 | "-", "_" and " " are interchangeable in agent names. |
| OasGenerator.AllDroppedGivesAgent | examples/oas_generator_with_logging.py:107-112 | A name with no alphanumeric word becomes "Agent". |
| OasGenerator.EmptyNameGivesAgent | examples/oas_generator_with_logging.py:104-112 | The empty name becomes "Agent". |
| OasGenerator.PascalCaseOfWords | examples/oas_generator_with_logging.py:107-111 | Alphanumeric words joined by any separator come back as those words, capitalised, in order. |
| OasGenerator.LongWordGetsSuffix | examples/oas_generator_with_logging.py:108-112 | A single alphanumeric word of length 6 or more is capitalised and then suffixed. So "MyAgent" becomes "MyagentAgent", because `capitalize` lowers the inner "A". |
| OasGenerator.OverrideLines | examples/oas_generator_with_logging.py:129-141 | Every line it produces is an environment-override line. |
| OasGenerator.GenerateLoggingSetup | examples/oas_generator_with_logging.py:115-161 | The text is the rendering of the setup plan joined by newlines. An error in the plan is raised unchanged. |
| OasGenerator.DisabledSetup | examples/oas_generator_with_logging.py:117-118 | Logging switched off gives exactly the "disabled" comment line. |
| OasGenerator.EnabledSetup | examples/oas_generator_with_logging.py:120-161 | Logging switched on gives the override lines in the order level, format, log file, or the three direct assignments when there is none. The setup call with the timestamp flag comes last. |
| OasGenerator.SetupPlan | examples/oas_generator_with_logging.py:115-161 | Planning fails only when logging is on and `env_overrides` is truthy but not a dict. A plan is never empty: it is the "disabled" line alone, or ends with the setup call. Override lines and direct assignments never mix. |
| OasGenerator.EntryLines | examples/oas_generator_with_logging.py:168-174 | One generated line per entry, in the entries' order: an API key reads `os.getenv("<KEY>")`, any other entry writes out `repr` of its value. |
| OasGenerator.ConfigLines | examples/oas_generator_with_logging.py:166-176 | One line per entry, in order, between "{" and the closing brace. |
| OasGenerator.GenerateIntelligenceConfig | examples/oas_generator_with_logging.py:164-177 | The loop builds exactly those lines joined by newlines. |
| OasGenerator.SecretsNotEmbedded | examples/oas_generator_with_logging.py:168-174 | An API key's configured value never reaches the generated code: sections differing only in such values generate the same lines. |

## Left out

- File and YAML input/output: `AgentConfigLoader.load_config`, the configuration file, `mkdir` of the log directory and the file `file_writer` opens. A tool's writes are recorded as effects, not performed.
- `dacp.setup_dacp_logging`, its side effects on Python logging, and the informational log lines. `setup_logging` is modelled only through the settings it extracts.
- The orchestrator, the agent runtime and every call to a language model. Intelligence requests are replies that ask for one.
- `json.loads` is a decoder parameter of `Protocol.ParseAgentResponse`, not a JSON parser.
- The clock is a parameter. Durations are whole seconds, so `{duration:.1f}` always renders as "<n>.0".
- `os.environ` is a map from names to values.
- Case mapping (`upper`, `lower`, `capitalize`, `isalnum`) and the escapes of `repr` are ASCII only.
- Python equality and hashing across types are not modelled: `True == 1` and `1 == 1.0` do not hold here. Neither are floats.
- Dict keys are strings only.
- Aliasing is not modelled: the `steps_completed` list is shared with the completed summary (examples/multi_step_workflow_demo.py:164) and the status view (line 218). Here it is a value, so a later step does not change an earlier reply. The `data` dict is not shared: the status view builds a fresh list of its keys (line 220).
- Keyword binding of `file_writer(**args)` is reduced to "exactly `path` and `content`". The text of the resulting TypeError is not Python's exact message.
- YamlConfig.ConfigurableAgent.constructor: when `setup_logging` or `_load_intelligence_config` raises, Python's constructor raises and no agent exists. The model instead keeps the exception in the `logging` or `intelligence` field. `HandleMessage` requires both fields to hold results, so it is only called on an agent Python could have built.
- The `metadata` field of `ConfigurableAgent` and its use in log text are not modelled.
- `_handle_capability` overrides in subclasses are not modelled, nor are `_generate_capability_handlers`, `_generate_capability_list`, the agent template text of `generate_agent_from_oas` and `main`. Only the three generator helpers that decide the generated configuration are modelled.
- YamlConfig.ResolvedEntries: the entry-by-entry closed form is stated only for an engine that is not a `${NAME}` reference. For such an engine, resolution depends on whether `engine` is met before or after a key. That is stated instead by `YamlConfig.EngineResolvedFirst` and `YamlConfig.EngineResolvedLast`.
- YamlConfig.LoadedEntries: same restriction, for the same reason.

=== FILE: multistep.dfy ===
/**
  `MultiStepAgent` of examples/multi_step_workflow_demo.py: a state machine
  per workflow id. Each workflow has a start time, an append-only list of
  completed step labels, a data dict and a current step (a number, or
  "completed" once the analysis has been wrapped up).

  The Python agent's handlers update the per-workflow dict in place; here each
  handler is a function from the workflow's state before the call to a
  `Transition` (the state after the call and the reply or exception), and the
  agent stores the new state back under the workflow id.
 */
module MultiStep {
  import opened Values
  import opened PyText
  import opened Protocol
  import opened Tools

  /** `state["current_step"]`: a step number, or the text "completed". */
  datatype Step = At(n: nat) | Completed

  datatype WorkflowState = WorkflowState(
    startedAt: int,
    stepsCompleted: seq<string>,
    data: Fields,
    currentStep: Step)

  /**
    The clock as one message reads it: `time.time()` in whole seconds and the
    text `time.strftime('%Y-%m-%d %H:%M:%S')` gives at that moment.
   */
  datatype Clock = Clock(now: int, stamp: string)

  /** The workflow's state after a handler ran, and what the handler returned or raised. */
  datatype Transition = Transition(next: WorkflowState, reply: Result<Json>)

  /** The labels the project analysis appends, in order; the label for step k is appended when leaving it. */
  const AnalysisLabels: seq<string> :=
    ["initialization", "project_structure", "requirements", "technical_analysis", "risk_assessment"]

  /** The check mark and hourglass of the file templates, as the characters multi_step_workflow_demo.py holds. */
  const Done: string := "\U{E2}\U{153}\U{2026}"
  const Pending: string := "\U{E2}\U{B3}"

  // The fixed texts of the replies and file templates.
  const DefaultProject: string := "Unknown Project"
  const DefaultRequirements: string := "Standard project requirements"
  const DefaultRisks: string := "Standard project risks identified"
  const DefaultTopic: string := "AI Research"
  const DefaultOutline: string := "Research outline not available"
  const PlanTitle: string := "# Project Analysis: "
  const PlanStarted: string := "\n\nStarted at: "
  const PlanSteps: string :=
    "\n\n## Analysis Steps:\n1. " + Done + " Project structure created\n2. " + Pending
    + " Gathering requirements\n3. " + Pending + " Technical analysis\n4. " + Pending
    + " Risk assessment\n5. " + Pending + " Final report\n"
  const RequirementsAsk: string := "Analyze the requirements for a project named '"
  const RequirementsAskEnd: string := "'. What key requirements should we consider?"
  const RequirementsNote: string :=
    "Requirements analysis phase started. Using AI to gather comprehensive requirements."
  const TechnicalTitle: string := "# Technical Analysis\n\n## Requirements:\n"
  const TechnicalPoints: string :=
    "\n\n## Technical Considerations:\n- Architecture planning needed\n- Technology stack evaluation\n"
    + "- Performance requirements\n- Scalability factors\n"
  const RiskAsk: string := "Perform a risk assessment for project '"
  const RiskAskWith: string := "' with requirements: "
  const RiskNote: string := "Conducting AI-powered risk assessment analysis."
  const ReportTitle: string := "# Final Project Analysis Report\n\n**Project:** "
  const ReportDuration: string := "\n**Analysis Duration:** "
  const ReportSteps: string := " seconds\n**Steps Completed:** "
  const ReportRequirements: string := "\n\n## Requirements:\n"
  const ReportRisks: string := "\n\n## Risk Assessment:\n"
  const ReportEnd: string := "\n\n## Conclusion:\nProject analysis completed successfully.\n"
  const CompletedNote: string := "Multi-step project analysis completed! Duration: "
  const OutlineAsk: string := "Create a research outline for the topic: "
  const OutlineAskEnd: string := ". Provide 5 key areas to investigate."
  const ResearchStart: string := "Starting research on: "
  const OutlineTitle: string := "# Research Outline: "
  const OutlineProgress: string :=
    "\n\n## Research Progress:\n- " + Done + " Outline created\n- " + Pending
    + " Source gathering\n- " + Pending + " Analysis\n- " + Pending + " Final report\n"
  const ResearchDone: string := "' completed with outline and initial documentation."

  function StepJson(s: Step): Json {
    match s
    case At(n) => JInt(n)
    case Completed => JStr("completed")
  }

  /** A list of strings as a Python list. */
  function StrList(ss: seq<string>): (j: Json)
    ensures j.JArr? && |j.items| == |ss|
  {
    JArr(seq(|ss|, i requires 0 <= i < |ss| => JStr(ss[i])))
  }

  /** Reading a Python list back as strings: None unless every item is a string. */
  function Strings(items: seq<Json>): Option<seq<string>> {
    if items == [] then Some([])
    else if !items[0].JStr? then None
    else match Strings(items[1..])
      case None => None
      case Some(rest) => Some([items[0].s] + rest)
  }

  /** `{duration:.1f}` of a duration in whole seconds. */
  function Seconds(d: int): string {
    IntToDecimal(d) + ".0"
  }

  /** `f"./projects/{name}/{file}"` */
  function ProjectFile(name: Json, file: string): (p: string)
    ensures "./projects/" <= p
  {
    var p := "./projects/" + (PyStr(name) + "/" + file);
    assert p[..11] == "./projects/";
    p
  }

  /** The file a reply asks `file_writer` to write, when it carries such a tool request. */
  function RequestedPath(reply: Result<Json>): Option<Json> {
    if reply.Ok? && reply.value.JObj? then
      match GetToolRequest(reply.value.fields)
      case Ok((name, args)) =>
        if name == JStr("file_writer") && args.JObj? then Get(args.fields, "path") else None
      case Err(_) => None
    else None
  }

  // ---------------------------------------------------------------------
  // Reply shapes

  /** A reply dict without a tool request. */
  function Reply(fs: Fields): (r: Result<Json>)
    requires forall e :: e in fs ==> e.0 != "tool_request"
    ensures r.Ok? && r.value.JObj? && r.value.fields == fs
    ensures RequestedPath(r) == None
  {
    NoKey(fs, "tool_request");
    Ok(JObj(fs))
  }

  /** `head` followed by a `file_writer` tool request for `path` with `content`. */
  function WriteRequest(head: Fields, path: string, content: string): (r: Result<Json>)
    requires forall e :: e in head ==> e.0 != "tool_request"
    ensures r.Ok? && r.value.JObj?
    ensures GetToolRequest(r.value.fields)
            == Ok((JStr("file_writer"), JObj([("path", JStr(path)), ("content", JStr(content))])))
    ensures RequestedPath(r) == Some(JStr(path))
  {
    var args := [("path", JStr(path)), ("content", JStr(content))];
    NoKey(head, "tool_request");
    ToolRequestRoundTrip(JStr("file_writer"), JObj(args), head, []);
    assert head + [("tool_request", JObj([("name", JStr("file_writer")), ("args", JObj(args))]))] + []
        == head + [("tool_request", JObj([("name", JStr("file_writer")), ("args", JObj(args))]))];
    Ok(JObj(head + [("tool_request", JObj([("name", JStr("file_writer")), ("args", JObj(args))]))]))
  }

  /**
    The reply is a dict with no tool request whose `intelligence_request`
    is a dict naming `purpose`.
   */
  predicate AsksIntelligence(r: Result<Json>, purpose: string) {
    r.Ok? && r.value.JObj? && !IsToolRequest(r.value.fields)
    && match Get(r.value.fields, "intelligence_request")
       case Some(JObj(request)) => Get(request, "purpose") == Some(JStr(purpose))
       case _ => false
  }

  /** `head` followed by an `intelligence_request` and a `response` text. */
  function AskIntelligence(head: Fields, prompt: string, purpose: string, response: string): (r: Result<Json>)
    requires forall e :: e in head ==> e.0 != "tool_request" && e.0 != "intelligence_request"
    ensures r.Ok? && r.value.JObj?
    ensures Get(r.value.fields, "intelligence_request")
            == Some(JObj([("prompt", JStr(prompt)), ("purpose", JStr(purpose))]))
    ensures AsksIntelligence(r, purpose)
    ensures RequestedPath(r) == None
  {
    var request := JObj([("prompt", JStr(prompt)), ("purpose", JStr(purpose))]);
    var tail := [("intelligence_request", request), ("response", JStr(response))];
    NoKey(head, "intelligence_request");
    GetAppend(head, tail, "intelligence_request");
    assert Get(tail, "intelligence_request") == Some(request);
    assert Get(request.fields, "purpose") == Some(JStr(purpose));
    NoKey(head + tail, "tool_request");
    Reply(head + tail)
  }

  /** Every path the agent asks to write lies under ./projects/ or ./research/. */
  predicate UnderWorkDirs(p: string) {
    "./projects/" <= p || "./research/" <= p
  }

  // ---------------------------------------------------------------------
  // The handlers

  function InitialState(now: int): (st: WorkflowState)
    ensures st.currentStep == At(0) && st.stepsCompleted == [] && st.data == [] && st.startedAt == now
  {
    WorkflowState(now, [], [], At(0))
  }

  /** The analysis file requested when the analysis starts. */
  function AnalysisPlan(projectName: Json, stamp: string): string {
    PlanTitle + PyStr(projectName) + PlanStarted + stamp + PlanSteps
  }

  /**
    The state change of `_start_project_analysis_workflow` at step 0: step 1,
    "initialization" completed, the project name (default "Unknown Project")
    recorded and nothing else in the data touched.
   */
  function StartNext(message: Fields, st: WorkflowState): (next: WorkflowState)
    ensures next.currentStep == At(1) && next.stepsCompleted == st.stepsCompleted + ["initialization"]
    ensures next.startedAt == st.startedAt
    ensures Get(next.data, "project_name") == Some(GetOr(message, "project_name", JStr(DefaultProject)))
    ensures forall k :: k != "project_name" ==> Get(next.data, k) == Get(st.data, k)
  {
    st.(currentStep := At(1),
        data := Put(st.data, "project_name", GetOr(message, "project_name", JStr(DefaultProject))),
        stepsCompleted := st.stepsCompleted + ["initialization"])
  }

  /**
    `_start_project_analysis_workflow`: at step 0 the state moves as
    `StartNext` says and the reply asks `file_writer` for
    ./projects/<name>/analysis.md; at any other step it is `_continue_workflow`.
   */
  function StartProjectAnalysis(message: Fields, st: WorkflowState, clock: Clock): (t: Transition)
    ensures st.currentStep == At(0) ==>
              t.next == StartNext(message, st) && t.reply.Ok?
              && RequestedPath(t.reply)
                 == Some(JStr(ProjectFile(GetOr(message, "project_name", JStr(DefaultProject)), "analysis.md")))
    ensures st.currentStep != At(0) ==> t == ContinueWorkflow(message, st, clock)
  {
    if st.currentStep == At(0) then
      var name := GetOr(message, "project_name", JStr(DefaultProject));
      Transition(StartNext(message, st),
        WriteRequest([("workflow_status", JStr("in_progress")),
                      ("current_step", JStr("creating_project_structure"))],
                     ProjectFile(name, "analysis.md"), AnalysisPlan(name, clock.stamp)))
    else
      ContinueWorkflow(message, st, clock)
  }

  /**
    The state change of `_continue_workflow`: at step k in 1..4 the step
    becomes k+1 and the label of step k is appended, step 2 stores the
    requirements and step 4 the risks (both from "ai_response", with
    defaults); any other step becomes "completed" and nothing else changes.
   */
  function ContinueNext(message: Fields, st: WorkflowState): (next: WorkflowState)
    ensures next.startedAt == st.startedAt
    ensures st.currentStep.At? && 1 <= st.currentStep.n <= 4 ==>
              next.currentStep == At(st.currentStep.n + 1)
              && next.stepsCompleted == st.stepsCompleted + [AnalysisLabels[st.currentStep.n]]
    ensures !(st.currentStep.At? && 1 <= st.currentStep.n <= 4) ==> next == st.(currentStep := Completed)
    ensures st.currentStep == At(2) ==>
              Get(next.data, "requirements") == Some(GetOr(message, "ai_response", JStr(DefaultRequirements)))
    ensures st.currentStep == At(4) ==>
              Get(next.data, "risks") == Some(GetOr(message, "ai_response", JStr(DefaultRisks)))
    ensures forall k :: k != "requirements" && k != "risks" ==> Get(next.data, k) == Get(st.data, k)
  {
    if st.currentStep == At(1) then
      st.(currentStep := At(2), stepsCompleted := st.stepsCompleted + ["project_structure"])
    else if st.currentStep == At(2) then
      st.(currentStep := At(3), stepsCompleted := st.stepsCompleted + ["requirements"],
          data := Put(st.data, "requirements", GetOr(message, "ai_response", JStr(DefaultRequirements))))
    else if st.currentStep == At(3) then
      st.(currentStep := At(4), stepsCompleted := st.stepsCompleted + ["technical_analysis"])
    else if st.currentStep == At(4) then
      st.(currentStep := At(5), stepsCompleted := st.stepsCompleted + ["risk_assessment"],
          data := Put(st.data, "risks", GetOr(message, "ai_response", JStr(DefaultRisks))))
    else
      st.(currentStep := Completed)
  }

  /** The reply of step 1: the requirements prompt (the project name must be known). */
  function RequirementsReply(data: Fields): (r: Result<Json>)
    ensures r.Ok? <==> HasKey(data, "project_name")
    ensures r.Err? ==> r.error == KeyError("project_name")
    ensures r.Ok? ==> AsksIntelligence(r, "requirements_gathering")
    ensures RequestedPath(r) == None
  {
    var name :- Lookup(data, "project_name");
    AskIntelligence(
      [("workflow_status", JStr("in_progress")), ("current_step", JStr("requirements_analysis"))],
      RequirementsAsk + PyStr(name) + RequirementsAskEnd,
      "requirements_gathering",
      RequirementsNote)
  }

  /** The reply of step 2: the technical analysis file. */
  function TechnicalReply(data: Fields): (r: Result<Json>)
    ensures r.Ok? <==> HasKey(data, "project_name") && HasKey(data, "requirements")
    ensures !HasKey(data, "project_name") ==> r == Err(KeyError("project_name"))
    ensures r.Ok? ==>
              RequestedPath(r) == Some(JStr(ProjectFile(Get(data, "project_name").value, "technical_analysis.md")))
  {
    var name :- Lookup(data, "project_name");
    var requirements :- Lookup(data, "requirements");
    WriteRequest(
      [("workflow_status", JStr("in_progress")), ("current_step", JStr("technical_analysis"))],
      ProjectFile(name, "technical_analysis.md"),
      TechnicalTitle + PyStr(requirements) + TechnicalPoints)
  }

  /** The reply of step 3: the risk assessment prompt. */
  function RiskReply(data: Fields): (r: Result<Json>)
    ensures r.Ok? <==> HasKey(data, "project_name")
    ensures r.Err? ==> r.error == KeyError("project_name")
    ensures r.Ok? ==> AsksIntelligence(r, "risk_analysis")
    ensures RequestedPath(r) == None
  {
    var name :- Lookup(data, "project_name");
    AskIntelligence(
      [("workflow_status", JStr("in_progress")), ("current_step", JStr("risk_assessment"))],
      RiskAsk + PyStr(name) + RiskAskWith + PyStr(GetOr(data, "requirements", JStr("N/A"))),
      "risk_analysis",
      RiskNote)
  }

  /** The reply of step 4: the final report file. */
  function ReportReply(st: WorkflowState, now: int): (r: Result<Json>)
    ensures r.Ok? <==> HasKey(st.data, "project_name") && HasKey(st.data, "risks")
    ensures !HasKey(st.data, "project_name") ==> r == Err(KeyError("project_name"))
    ensures r.Ok? ==>
              RequestedPath(r) == Some(JStr(ProjectFile(Get(st.data, "project_name").value, "final_report.md")))
  {
    var name :- Lookup(st.data, "project_name");
    var risks :- Lookup(st.data, "risks");
    WriteRequest(
      [("workflow_status", JStr("completing")), ("current_step", JStr("final_report"))],
      ProjectFile(name, "final_report.md"),
      ReportTitle + PyStr(name) + ReportDuration + Seconds(now - st.startedAt)
      + ReportSteps + IntToDecimal(|st.stepsCompleted|)
      + ReportRequirements + PyStr(GetOr(st.data, "requirements", JStr("N/A")))
      + ReportRisks + PyStr(risks) + ReportEnd)
  }

  /** The reply of the completion branch: the summary of the whole analysis. */
  function CompletedReply(st: WorkflowState, now: int): (r: Result<Json>)
    ensures r.Ok? <==> HasKey(st.data, "project_name")
    ensures r.Err? ==> r.error == KeyError("project_name")
    ensures r.Ok? ==> r.value.JObj? && Get(r.value.fields, "workflow_status") == Some(JStr("completed"))
    ensures RequestedPath(r) == None
  {
    var name :- Lookup(st.data, "project_name");
    var d := now - st.startedAt;
    var fs := [("workflow_status", JStr("completed")),
               ("response", JStr(CompletedNote + Seconds(d)
                                 + "s, Steps: " + IntToDecimal(|st.stepsCompleted|))),
               ("summary", JObj([
                  ("project_name", name),
                  ("steps_completed", StrList(st.stepsCompleted)),
                  ("duration", JInt(d)),
                  ("files_created", JArr([JStr(ProjectFile(name, "analysis.md")),
                                          JStr(ProjectFile(name, "technical_analysis.md")),
                                          JStr(ProjectFile(name, "final_report.md"))]))]))];
    var r := Reply(fs);
    assert fs[0].0 == "workflow_status";
    r
  }

  /** The reply `_continue_workflow` builds from the state it has just updated, by the step it was at. */
  function ContinueReply(st: WorkflowState, next: WorkflowState, now: int): (r: Result<Json>)
    ensures RequestedPath(r).Some? ==> RequestedPath(r).value.JStr? && "./projects/" <= RequestedPath(r).value.s
    ensures st.currentStep == At(1) && HasKey(next.data, "project_name") ==>
              AsksIntelligence(r, "requirements_gathering")
    ensures st.currentStep == At(2) && HasKey(next.data, "project_name") && HasKey(next.data, "requirements") ==>
              RequestedPath(r) == Some(JStr(ProjectFile(Get(next.data, "project_name").value, "technical_analysis.md")))
    ensures st.currentStep == At(3) && HasKey(next.data, "project_name") ==>
              AsksIntelligence(r, "risk_analysis")
    ensures st.currentStep == At(4) && HasKey(next.data, "project_name") && HasKey(next.data, "risks") ==>
              RequestedPath(r) == Some(JStr(ProjectFile(Get(next.data, "project_name").value, "final_report.md")))
  {
    if st.currentStep == At(1) then RequirementsReply(next.data)
    else if st.currentStep == At(2) then TechnicalReply(next.data)
    else if st.currentStep == At(3) then RiskReply(next.data)
    else if st.currentStep == At(4) then ReportReply(next, now)
    else CompletedReply(next, now)
  }

  /**
    `_continue_workflow`: the state moves as `ContinueNext` says, and only
    then is the reply built from the updated state. So a continuation fails
    exactly when it has no project name, and then with KeyError after its
    step has moved on; the completion branch answers "completed".
   */
  function ContinueWorkflow(message: Fields, st: WorkflowState, clock: Clock): (t: Transition)
    ensures t.next == ContinueNext(message, st)
    ensures t.reply.Ok? <==> HasKey(st.data, "project_name")
    ensures t.reply.Err? ==> t.reply.error == KeyError("project_name")
    ensures t.next.currentStep == Completed && t.reply.Ok? ==>
              t.reply.value.JObj? && Get(t.reply.value.fields, "workflow_status") == Some(JStr("completed"))
    ensures RequestedPath(t.reply).Some? ==>
              RequestedPath(t.reply).value.JStr? && "./projects/" <= RequestedPath(t.reply).value.s
  {
    var next := ContinueNext(message, st);
    assert Get(next.data, "project_name") == Get(st.data, "project_name");
    assert st.currentStep == At(2) ==> HasKey(next.data, "requirements");
    assert st.currentStep == At(4) ==> HasKey(next.data, "risks");
    Transition(next, ContinueReply(st, next, clock.now))
  }

  /**
    What each analysis step answers once a project name is stored: step 1
    asks the intelligence for the requirements, step 2 asks `file_writer`
    for technical_analysis.md, step 3 asks for the risk analysis and step 4
    asks for final_report.md.
   */
  lemma ContinueSteps(message: Fields, st: WorkflowState, clock: Clock)
    requires HasKey(st.data, "project_name")
    ensures var t := ContinueWorkflow(message, st, clock);
            st.currentStep == At(1) ==> AsksIntelligence(t.reply, "requirements_gathering")
    ensures var t := ContinueWorkflow(message, st, clock);
            st.currentStep == At(2) ==>
              RequestedPath(t.reply)
              == Some(JStr(ProjectFile(Get(st.data, "project_name").value, "technical_analysis.md")))
    ensures var t := ContinueWorkflow(message, st, clock);
            st.currentStep == At(3) ==> AsksIntelligence(t.reply, "risk_analysis")
    ensures var t := ContinueWorkflow(message, st, clock);
            st.currentStep == At(4) ==>
              RequestedPath(t.reply)
              == Some(JStr(ProjectFile(Get(st.data, "project_name").value, "final_report.md")))
  {
    var next := ContinueNext(message, st);
    assert Get(next.data, "project_name") == Get(st.data, "project_name");
    assert st.currentStep == At(2) ==> HasKey(next.data, "requirements");
    assert st.currentStep == At(4) ==> HasKey(next.data, "risks");
  }

  /** The research outline file. */
  function OutlineText(topic: Json, outline: Json): string {
    OutlineTitle + PyStr(topic) + "\n\n" + PyStr(outline) + OutlineProgress
  }

  /**
    `_handle_research_workflow`: step 0 stores the topic (default
    "AI Research") and asks for an outline; step 1 stores the outline (default
    "Research outline not available") and asks `file_writer` for
    ./research/<topic, spaces as underscores>_outline.md, which needs a text
    topic; any other step reports completion and changes nothing.
   */
  function HandleResearchWorkflow(message: Fields, st: WorkflowState): (t: Transition)
    ensures var topic := GetOr(message, "topic", JStr(DefaultTopic));
            st.currentStep == At(0) ==>
              t.next == st.(currentStep := At(1), data := Put(st.data, "topic", topic))
              && AsksIntelligence(t.reply, "research_planning") && RequestedPath(t.reply) == None
    ensures var topic := GetOr(message, "topic", JStr(DefaultTopic));
            var outline := GetOr(message, "ai_response", JStr(DefaultOutline));
            st.currentStep == At(1) ==>
              t.next == st.(currentStep := At(2), data := Put(st.data, "outline", outline))
              && (t.reply.Ok? <==> topic.JStr?)
              && (t.reply.Err? ==> t.reply.error.AttributeError?)
              && (t.reply.Ok? ==>
                    RequestedPath(t.reply) == Some(JStr("./research/" + ReplaceChar(topic.s, ' ', '_') + "_outline.md")))
    ensures st.currentStep != At(0) && st.currentStep != At(1) ==>
              t.next == st && t.reply.Ok? && RequestedPath(t.reply) == None
              && t.reply.value.JObj? && Get(t.reply.value.fields, "workflow_status") == Some(JStr("completed"))
  {
    var topic := GetOr(message, "topic", JStr(DefaultTopic));
    if st.currentStep == At(0) then
      Transition(
        st.(currentStep := At(1), data := Put(st.data, "topic", topic)),
        AskIntelligence(
          [("workflow_status", JStr("starting_research"))],
          OutlineAsk + PyStr(topic) + OutlineAskEnd,
          "research_planning",
          ResearchStart + PyStr(topic)))
    else if st.currentStep == At(1) then
      var outline := GetOr(message, "ai_response", JStr(DefaultOutline));
      var next := st.(currentStep := At(2), data := Put(st.data, "outline", outline));
      if !topic.JStr? then
        Transition(next, Err(NoAttribute(topic, "replace")))
      else
        Transition(next,
          WriteRequest([("workflow_status", JStr("gathering_sources"))],
                       "./research/" + ReplaceChar(topic.s, ' ', '_') + "_outline.md",
                       OutlineText(topic, outline)))
    else
      var fs := [("workflow_status", JStr("completed")),
                 ("response", JStr("Research workflow for '" + PyStr(topic)
                                   + ResearchDone))];
      var r := Reply(fs);
      assert fs[0].0 == "workflow_status";
      Transition(st, r)
  }

  /**
    `_get_workflow_status`: a read-only view of the workflow: its id, step,
    completed labels, running time and the keys of its data.
   */
  function WorkflowStatus(workflowId: Json, st: WorkflowState, now: int): (r: Fields)
    ensures Get(r, "workflow_id") == Some(workflowId)
    ensures Get(r, "current_step") == Some(StepJson(st.currentStep))
    ensures Get(r, "steps_completed").Some? && Get(r, "steps_completed").value.JArr?
            && Strings(Get(r, "steps_completed").value.items) == Some(st.stepsCompleted)
    ensures Get(r, "data_keys").Some? && Get(r, "data_keys").value.JArr?
            && Strings(Get(r, "data_keys").value.items) == Some(Keys(st.data))
    ensures !HasKey(r, "tool_request")
  {
    var front := [("workflow_id", workflowId), ("current_step", StepJson(st.currentStep))];
    var middle := [("steps_completed", StrList(st.stepsCompleted)), ("duration", JInt(now - st.startedAt))];
    var last := [("data_keys", StrList(Keys(st.data)))];
    var r := front + (middle + last);
    StringsOfStrList(st.stepsCompleted);
    StringsOfStrList(Keys(st.data));
    assert front[1..] == [front[1]];
    NoKey(front, "steps_completed");
    GetAppend(front, middle + last, "steps_completed");
    NoKey(front + middle, "data_keys");
    assert r == (front + middle) + last;
    GetAppend(front + middle, last, "data_keys");
    NoKey(r, "tool_request");
    r
  }

  /** `handle_message` after the workflow's state has been found or created: the task switch. */
  function Dispatch(task: Json, workflowId: Json, message: Fields, st: WorkflowState, clock: Clock): (t: Transition)
    ensures task == JStr("get_workflow_status") ==> t.next == st && t.reply.Ok?
    ensures task !in {JStr("analyze_project"), JStr("continue_workflow"), JStr("get_workflow_status"),
                      JStr("multi_step_research")} ==>
              t.next == st && t.reply == Ok(JObj([("error", JStr("Unknown task: " + PyStr(task)))]))
    ensures task != JStr("multi_step_research") && OnAnalysisPath(st) ==> OnAnalysisPath(t.next)
  {
    if task == JStr("analyze_project") then
      AnalysisStepKeepsPath(message, st, clock);
      StartProjectAnalysis(message, st, clock)
    else if task == JStr("continue_workflow") then
      ContinueKeepsPath(message, st);
      ContinueWorkflow(message, st, clock)
    else if task == JStr("get_workflow_status") then
      Transition(st, Ok(JObj(WorkflowStatus(workflowId, st, clock.now))))
    else if task == JStr("multi_step_research") then
      HandleResearchWorkflow(message, st)
    else
      Transition(st, Reply([("error", JStr("Unknown task: " + PyStr(task)))]))
  }

  /** Lists and dicts cannot be dictionary keys. */
  predicate Hashable(j: Json) {
    !j.JArr? && !j.JObj?
  }

  /** `message.get("workflow_id", "default")` */
  function WorkflowIdOf(message: Fields): Json {
    GetOr(message, "workflow_id", JStr("default"))
  }

  /** `message.get("task")` */
  function TaskOf(message: Fields): Json {
    GetOr(message, "task", JNull)
  }

  /** The state a message finds for its workflow: the stored one, or a fresh one at step 0. */
  function StateFor(states: map<Json, WorkflowState>, id: Json, now: int): WorkflowState {
    if id in states then states[id] else InitialState(now)
  }

  /**
    `handle_message` on the table of workflows: the workflow id must be
    hashable; an unseen id gets a fresh state at step 0 before the task is
    looked at; only that id's state changes.
   */
  function Handle(states: map<Json, WorkflowState>, message: Fields, clock: Clock)
    : (r: (map<Json, WorkflowState>, Result<Json>))
    ensures !Hashable(WorkflowIdOf(message)) ==> r.0 == states && r.1.Err? && r.1.error.TypeError?
    ensures Hashable(WorkflowIdOf(message)) ==> r.0.Keys == states.Keys + {WorkflowIdOf(message)}
    ensures forall k :: k in states && k != WorkflowIdOf(message) ==> k in r.0 && r.0[k] == states[k]
  {
    var id := WorkflowIdOf(message);
    if !Hashable(id) then (states, Err(TypeError("unhashable type: '" + TypeName(id) + "'")))
    else
      var t := Dispatch(TaskOf(message), id, message, StateFor(states, id, clock.now), clock);
      (states[id := t.next], t.reply)
  }

  /** The agent: the table of workflows, and a step counter the Python agent never advances. */
  class MultiStepAgent {
    var workflowState: map<Json, WorkflowState>
    var stepCounter: int

    constructor ()
      ensures workflowState == map[] && stepCounter == 0
    {
      workflowState := map[];
      stepCounter := 0;
    }

    method HandleMessage(message: Fields, clock: Clock) returns (reply: Result<Json>)
      modifies this
      ensures (workflowState, reply) == Handle(old(workflowState), message, clock)
      ensures stepCounter == old(stepCounter)
    {
      var task := TaskOf(message);
      var workflowId := WorkflowIdOf(message);
      if !Hashable(workflowId) {
        return Err(TypeError("unhashable type: '" + TypeName(workflowId) + "'"));
      }
      // An unseen workflow starts from a fresh state; whatever the handler
      // leaves is stored under the id, so the fresh state is stored with it.
      var state := StateFor(workflowState, workflowId, clock.now);
      var t := Dispatch(task, workflowId, message, state, clock);
      workflowState := workflowState[workflowId := t.next];
      reply := t.reply;
    }
  }

  // ---------------------------------------------------------------------
  // Properties

  lemma {:induction false} StringsOfStrList(ss: seq<string>)
    ensures Strings(StrList(ss).items) == Some(ss)
  {
    if ss != [] {
      StringsOfStrList(ss[1..]);
      assert StrList(ss).items[0] == JStr(ss[0]);
      assert StrList(ss).items[1..] == StrList(ss[1..]).items;
      assert ss == [ss[0]] + ss[1..];
    }
  }

  /**
    The first message of a workflow is handled on a fresh state at step 0,
    with no completed steps and no data, started at the message's time.
   */
  lemma UnseenWorkflowStartsFresh(states: map<Json, WorkflowState>, message: Fields, clock: Clock)
    requires Hashable(WorkflowIdOf(message)) && WorkflowIdOf(message) !in states
    ensures var t := Dispatch(TaskOf(message), WorkflowIdOf(message), message, InitialState(clock.now), clock);
            Handle(states, message, clock) == (states[WorkflowIdOf(message) := t.next], t.reply)
  {
  }

  /**
    A later message of a workflow is handled on the state stored for it:
    "continue_workflow" on an analysis at step k in 1..4 moves it to step k+1
    with the label of step k appended, and a status query stores the state
    back unchanged.
   */
  lemma SeenWorkflowContinues(states: map<Json, WorkflowState>, message: Fields, clock: Clock)
    requires Hashable(WorkflowIdOf(message)) && WorkflowIdOf(message) in states
    ensures var id := WorkflowIdOf(message);
            var t := Dispatch(TaskOf(message), id, message, states[id], clock);
            Handle(states, message, clock) == (states[id := t.next], t.reply)
    ensures var st := states[WorkflowIdOf(message)];
            var next := Handle(states, message, clock).0[WorkflowIdOf(message)];
            TaskOf(message) == JStr("continue_workflow") && st.currentStep.At? && 1 <= st.currentStep.n <= 4 ==>
              next.currentStep == At(st.currentStep.n + 1)
              && next.stepsCompleted == st.stepsCompleted + [AnalysisLabels[st.currentStep.n]]
    ensures TaskOf(message) == JStr("get_workflow_status") ==> Handle(states, message, clock).0 == states
  {
    var id := WorkflowIdOf(message);
    assert StateFor(states, id, clock.now) == states[id];
    if TaskOf(message) == JStr("continue_workflow") {
      assert Dispatch(TaskOf(message), id, message, states[id], clock).next == ContinueNext(message, states[id]);
    }
  }

  /** Each known task reaches its own handler, run on the workflow's state. */
  lemma DispatchRoutes(task: Json, workflowId: Json, message: Fields, st: WorkflowState, clock: Clock)
    ensures var t := Dispatch(task, workflowId, message, st, clock);
            task == JStr("analyze_project") ==> t == StartProjectAnalysis(message, st, clock)
    ensures var t := Dispatch(task, workflowId, message, st, clock);
            task == JStr("continue_workflow") ==> t == ContinueWorkflow(message, st, clock)
    ensures var t := Dispatch(task, workflowId, message, st, clock);
            task == JStr("multi_step_research") ==> t == HandleResearchWorkflow(message, st)
    ensures var t := Dispatch(task, workflowId, message, st, clock);
            task == JStr("get_workflow_status") ==>
              t == Transition(st, Ok(JObj(WorkflowStatus(workflowId, st, clock.now))))
  {
  }

  /** An unknown task still leaves a fresh state behind for an unseen workflow. */
  lemma UnknownTaskKeepsFreshState(states: map<Json, WorkflowState>, message: Fields, clock: Clock)
    requires Hashable(WorkflowIdOf(message)) && WorkflowIdOf(message) !in states
    requires TaskOf(message) !in {JStr("analyze_project"), JStr("continue_workflow"),
                                  JStr("get_workflow_status"), JStr("multi_step_research")}
    ensures Handle(states, message, clock).0[WorkflowIdOf(message)] == InitialState(clock.now)
    ensures Handle(states, message, clock).1
            == Ok(JObj([("error", JStr("Unknown task: " + PyStr(TaskOf(message))))]))
  {
  }

  /** The status shows the step faithfully: distinct steps show differently. */
  lemma StepJsonInjective(a: Step, b: Step)
    ensures StepJson(a) == StepJson(b) ==> a == b
  {
  }

  /**
    Along the analysis the completed labels are always the first labels of
    the analysis, as many as the step number while the step is a number.
   */
  predicate OnAnalysisPath(st: WorkflowState) {
    |st.stepsCompleted| <= |AnalysisLabels|
    && st.stepsCompleted == AnalysisLabels[..|st.stepsCompleted|]
    && (st.currentStep.At? ==> st.currentStep.n == |st.stepsCompleted|)
  }

  lemma ContinueKeepsPath(message: Fields, st: WorkflowState)
    ensures OnAnalysisPath(st) ==> OnAnalysisPath(ContinueNext(message, st))
  {
    if OnAnalysisPath(st) && st.currentStep.At? && 1 <= st.currentStep.n <= 4 {
      var k := st.currentStep.n;
      assert AnalysisLabels[..k] + [AnalysisLabels[k]] == AnalysisLabels[..k + 1];
    }
  }

  lemma AnalysisStepKeepsPath(message: Fields, st: WorkflowState, clock: Clock)
    ensures OnAnalysisPath(st) ==> OnAnalysisPath(StartProjectAnalysis(message, st, clock).next)
  {
    if st.currentStep == At(0) {
      assert AnalysisLabels[..1] == ["initialization"];
    } else {
      ContinueKeepsPath(message, st);
    }
  }

  /** A research step taken on a fresh workflow leaves the step number ahead of the completed labels. */
  lemma ResearchLeavesPath(message: Fields, now: int)
    ensures OnAnalysisPath(InitialState(now))
    ensures !OnAnalysisPath(HandleResearchWorkflow(message, InitialState(now)).next)
  {
  }

  /**
    A whole analysis: starting a fresh workflow and continuing it five times
    completes all five labels in order and ends with a completed summary.
   */
  lemma FullAnalysis(m0: Fields, m1: Fields, m2: Fields, m3: Fields, m4: Fields, m5: Fields,
                     c: Clock, now: int)
    ensures var s1 := StartProjectAnalysis(m0, InitialState(now), c).next;
            var s2 := ContinueWorkflow(m1, s1, c).next;
            var s3 := ContinueWorkflow(m2, s2, c).next;
            var s4 := ContinueWorkflow(m3, s3, c).next;
            var s5 := ContinueWorkflow(m4, s4, c).next;
            var t6 := ContinueWorkflow(m5, s5, c);
            t6.next.currentStep == Completed && t6.next.stepsCompleted == AnalysisLabels
            && t6.reply.Ok? && t6.reply.value.JObj?
            && Get(t6.reply.value.fields, "workflow_status") == Some(JStr("completed"))
  {
    var s1 := StartProjectAnalysis(m0, InitialState(now), c).next;
    var s2 := ContinueWorkflow(m1, s1, c).next;
    var s3 := ContinueWorkflow(m2, s2, c).next;
    var s4 := ContinueWorkflow(m3, s3, c).next;
    var s5 := ContinueWorkflow(m4, s4, c).next;
    AnalysisStates(m0, m1, m2, m3, m4, now);
    assert s5 == ContinueNext(m4, ContinueNext(m3, ContinueNext(m2, ContinueNext(m1, StartNext(m0, InitialState(now))))));
  }

  /** The states along a whole analysis, before the final call. */
  lemma AnalysisStates(m0: Fields, m1: Fields, m2: Fields, m3: Fields, m4: Fields, now: int)
    ensures var s5 := ContinueNext(m4, ContinueNext(m3, ContinueNext(m2, ContinueNext(m1, StartNext(m0, InitialState(now))))));
            s5.currentStep == At(5) && s5.stepsCompleted == AnalysisLabels && HasKey(s5.data, "project_name")
  {
    var s1 := StartNext(m0, InitialState(now));
    var s2 := ContinueNext(m1, s1);
    assert s2.currentStep == At(2) && HasKey(s2.data, "project_name");
    var s3 := ContinueNext(m2, s2);
    assert s3.currentStep == At(3) && HasKey(s3.data, "project_name");
    var s4 := ContinueNext(m3, s3);
    assert s4.currentStep == At(4) && HasKey(s4.data, "project_name");
    var s5 := ContinueNext(m4, s4);
    assert s5.stepsCompleted == AnalysisLabels;
  }

  /** Once completed, continuing changes nothing and keeps answering "completed". */
  lemma CompletedIsFinal(message: Fields, st: WorkflowState, clock: Clock)
    requires st.currentStep == Completed
    ensures ContinueWorkflow(message, st, clock).next == st
    ensures StartProjectAnalysis(message, st, clock).next == st
    ensures HandleResearchWorkflow(message, st).next == st
  {
  }

  /** Continuing a workflow that never started completes it and then fails on the missing project name. */
  lemma ContinueFromStartFails(message: Fields, now: int, clock: Clock)
    ensures var t := ContinueWorkflow(message, InitialState(now), clock);
            t.next.currentStep == Completed && t.reply == Err(KeyError("project_name"))
  {
  }

  /** No path the agent asks to write is one `file_writer` accepts. */
  lemma {:induction false} WorkDirsRefused(p: string)
    requires UnderWorkDirs(p)
    ensures !PathAllowed(p)
  {
    assert p[2] == 'p' || p[2] == 'r';
  }

  /**
    Every tool request the agent emits names a path under ./projects/ or
    ./research/, so every one of them is refused with "Path not allowed".
   */
  lemma EmittedWritesRefused(task: Json, workflowId: Json, message: Fields, st: WorkflowState, clock: Clock)
    ensures var path := RequestedPath(Dispatch(task, workflowId, message, st, clock).reply);
            path.Some? ==>
              path.value.JStr? && UnderWorkDirs(path.value.s)
              && FileWriter(path.value.s, "").result == Err(ValueError("Path not allowed"))
  {
    var reply := Dispatch(task, workflowId, message, st, clock).reply;
    if task == JStr("analyze_project") {
      StartPaths(message, st, clock);
      assert reply == StartProjectAnalysis(message, st, clock).reply;
    } else if task == JStr("continue_workflow") {
      assert reply == ContinueWorkflow(message, st, clock).reply;
    } else if task == JStr("multi_step_research") {
      ResearchPaths(message, st);
      assert reply == HandleResearchWorkflow(message, st).reply;
    }
    var path := RequestedPath(reply);
    if path.Some? {
      WorkDirsRefused(path.value.s);
    }
  }

  lemma StartPaths(message: Fields, st: WorkflowState, clock: Clock)
    ensures var path := RequestedPath(StartProjectAnalysis(message, st, clock).reply);
            path.Some? ==> path.value.JStr? && "./projects/" <= path.value.s
  {
  }

  lemma ResearchPaths(message: Fields, st: WorkflowState)
    ensures var path := RequestedPath(HandleResearchWorkflow(message, st).reply);
            path.Some? ==> path.value.JStr? && "./research/" <= path.value.s
  {
    var path := RequestedPath(HandleResearchWorkflow(message, st).reply);
    if path.Some? {
      var topic := GetOr(message, "topic", JStr(DefaultTopic));
      var p := "./research/" + (ReplaceChar(topic.s, ' ', '_') + "_outline.md");
      assert p[..11] == "./research/";
      assert path.value.s == p;
    }
  }
}

=== FILE: oasgen.dfy ===
/**
  The parts of examples/oas_generator_with_logging.py that decide what the
  generated agent code contains: the class name made from the agent's name,
  the lines of its logging setup, and the lines of its intelligence
  configuration.
 */
module OasGenerator {
  import opened Values
  import opened PyText
  import YamlConfig

  // ---------------------------------------------------------------------
  // _to_class_name

  /** `name.replace("-", "_").replace(" ", "_").split("_")` */
  function Words(name: string): seq<string> {
    Split(ReplaceChar(ReplaceChar(name, '-', '_'), ' ', '_'), '_')
  }

  /** The capitalised words that are alphanumeric, in order; the others are dropped. */
  function Kept(words: seq<string>): (r: seq<string>)
    ensures forall p :: p in r ==> IsAlnum(p)
  {
    if words == [] then []
    else (if IsAlnum(words[0]) then [Capitalize(words[0])] else []) + Kept(words[1..])
  }

  /** Text made of alphanumeric pieces is alphanumeric throughout. */
  lemma {:induction false} JoinAlnum(parts: seq<string>)
    requires forall p :: p in parts ==> IsAlnum(p)
    ensures forall i :: 0 <= i < |Join("", parts)| ==> IsAlnumChar(Join("", parts)[i])
  {
    if |parts| > 1 {
      assert parts[0] in parts;
      assert forall p :: p in parts[1..] ==> p in parts;
      JoinAlnum(parts[1..]);
      assert Join("", parts) == parts[0] + Join("", parts[1..]);
    } else if |parts| == 1 {
      assert parts[0] in parts;
    }
  }

  /**
    `_to_class_name`: the kept words joined, with "Agent" appended unless the
    joined text already ends with it. The result is a name made of letters
    and digits that ends in "Agent".
   */
  function ToClassName(name: string): (r: string)
    ensures EndsWith(r, "Agent")
    ensures forall i :: 0 <= i < |r| ==> IsAlnumChar(r[i])
    ensures var clean := Join("", Kept(Words(name)));
            (EndsWith(clean, "Agent") ==> r == clean) && (!EndsWith(clean, "Agent") ==> r == clean + "Agent")
  {
    var clean := Join("", Kept(Words(name)));
    JoinAlnum(Kept(Words(name)));
    if EndsWith(clean, "Agent") then clean
    else
      SuffixAgent(clean);
      clean + "Agent"
  }

  /** Appending "Agent" to letters and digits keeps letters and digits and ends in "Agent". */
  lemma SuffixAgent(clean: string)
    requires forall i :: 0 <= i < |clean| ==> IsAlnumChar(clean[i])
    ensures EndsWith(clean + "Agent", "Agent")
    ensures forall i :: 0 <= i < |clean + "Agent"| ==> IsAlnumChar((clean + "Agent")[i])
  {
    var r := clean + "Agent";
    assert r[|r| - 5..] == "Agent";
    assert forall i :: 0 <= i < 5 ==> IsAlnumChar("Agent"[i]);
    assert forall i :: |clean| <= i < |r| ==> r[i] == "Agent"[i - |clean|];
  }

  predicate IsSeparator(c: char) {
    c == '-' || c == ' ' || c == '_'
  }

  /** `-`, space and `_` are interchangeable: names that differ only in which separator is used agree. */
  lemma SeparatorsAlike(a: string, b: string)
    requires |a| == |b|
    requires forall i :: 0 <= i < |a| ==> a[i] == b[i] || (IsSeparator(a[i]) && IsSeparator(b[i]))
    ensures ToClassName(a) == ToClassName(b)
  {
    NormalisedAlike(a, b);
    assert Words(a) == Words(b);
  }

  /** Texts differing only at separators agree once every separator is an underscore. */
  lemma NormalisedAlike(a: string, b: string)
    requires |a| == |b|
    requires forall i :: 0 <= i < |a| ==> a[i] == b[i] || (IsSeparator(a[i]) && IsSeparator(b[i]))
    ensures ReplaceChar(ReplaceChar(a, '-', '_'), ' ', '_') == ReplaceChar(ReplaceChar(b, '-', '_'), ' ', '_')
  {
    var na := ReplaceChar(ReplaceChar(a, '-', '_'), ' ', '_');
    var nb := ReplaceChar(ReplaceChar(b, '-', '_'), ' ', '_');
    assert forall i :: 0 <= i < |a| ==> na[i] == if IsSeparator(a[i]) then '_' else a[i];
    assert forall i :: 0 <= i < |b| ==> nb[i] == if IsSeparator(b[i]) then '_' else b[i];
  }

  /** A word of letters and digits holds no separator. */
  lemma AlnumHasNoSeparator(w: string)
    requires IsAlnum(w)
    ensures '_' !in w && '-' !in w && ' ' !in w
  {
    assert forall i :: 0 <= i < |w| ==> !IsSeparator(w[i]);
  }

  /** When no word survives, the class name is just the suffix. */
  lemma {:induction false} NoneKept(words: seq<string>)
    requires forall w :: w in words ==> !IsAlnum(w)
    ensures Kept(words) == []
  {
    if words != [] {
      assert words[0] in words;
      assert forall w :: w in words[1..] ==> w in words;
      NoneKept(words[1..]);
    }
  }

  lemma AllDroppedGivesAgent(name: string)
    requires forall w :: w in Words(name) ==> !IsAlnum(w)
    ensures ToClassName(name) == "Agent"
  {
    NoneKept(Words(name));
  }

  /** The empty name, and one made only of separators and punctuation, give "Agent". */
  lemma EmptyNameGivesAgent()
    ensures ToClassName("") == "Agent"
  {
    assert Words("") == [""];
    AllDroppedGivesAgent("");
  }

  /** Capitalising each of several alphanumeric words. */
  function CapitalizeAll(words: seq<string>): (r: seq<string>)
    ensures |r| == |words| && forall i :: 0 <= i < |words| ==> r[i] == Capitalize(words[i])
  {
    seq(|words|, i requires 0 <= i < |words| => Capitalize(words[i]))
  }

  lemma {:induction false} KeptAll(words: seq<string>)
    requires forall w :: w in words ==> IsAlnum(w)
    ensures Kept(words) == CapitalizeAll(words)
  {
    if words != [] {
      assert words[0] in words;
      assert forall w :: w in words[1..] ==> w in words;
      KeptAll(words[1..]);
    }
  }

  /** Replacing a character that does not occur changes nothing. */
  lemma ReplaceAbsent(s: string, from: char, to: char)
    requires from !in s
    ensures ReplaceChar(s, from, to) == s
  {
  }

  /**
    Alphanumeric words joined by any one separator come back as those words,
    each capitalised: the class name is their PascalCase form.
   */
  lemma PascalCaseOfWords(words: seq<string>, sep: char)
    requires words != [] && IsSeparator(sep)
    requires forall w :: w in words ==> IsAlnum(w)
    ensures Kept(Words(Join([sep], words))) == CapitalizeAll(words)
  {
    var underscored := Join("_", words);
    forall w | w in words
      ensures '_' !in w && '-' !in w && ' ' !in w
    {
      AlnumHasNoSeparator(w);
    }
    JoinSplit(words, '_');
    SplitJoin(Join([sep], words), sep);
    JoinSplit(words, sep);
    assert ReplaceChar(ReplaceChar(Join([sep], words), '-', '_'), ' ', '_')
           == ReplaceChar(ReplaceChar(underscored, '-', '_'), ' ', '_') by {
      SeparatedAlike(words, sep);
    }
    JoinNoChar(words, '-');
    JoinNoChar(words, ' ');
    ReplaceAbsent(underscored, '-', '_');
    ReplaceAbsent(underscored, ' ', '_');
    KeptAll(words);
  }

  /** Joining the same words with two separators gives texts differing only at separators. */
  lemma {:induction false} SeparatedAlike(words: seq<string>, sep: char)
    requires IsSeparator(sep)
    ensures |Join([sep], words)| == |Join("_", words)|
    ensures forall i :: 0 <= i < |Join([sep], words)| ==>
              Join([sep], words)[i] == Join("_", words)[i]
              || (IsSeparator(Join([sep], words)[i]) && IsSeparator(Join("_", words)[i]))
    ensures ReplaceChar(ReplaceChar(Join([sep], words), '-', '_'), ' ', '_')
            == ReplaceChar(ReplaceChar(Join("_", words), '-', '_'), ' ', '_')
  {
    if |words| > 1 {
      SeparatedAlike(words[1..], sep);
      assert Join([sep], words) == words[0] + [sep] + Join([sep], words[1..]);
      assert Join("_", words) == words[0] + "_" + Join("_", words[1..]);
      SeparatorStepAlike(words[0], sep, Join([sep], words[1..]), Join("_", words[1..]));
    }
    NormalisedAlike(Join([sep], words), Join("_", words));
  }

  /** Putting the same word and a separator in front of two texts alike keeps them alike. */
  lemma SeparatorStepAlike(w: string, sep: char, ra: string, rb: string)
    requires IsSeparator(sep) && |ra| == |rb|
    requires forall i :: 0 <= i < |ra| ==> ra[i] == rb[i] || (IsSeparator(ra[i]) && IsSeparator(rb[i]))
    ensures |w + [sep] + ra| == |w + "_" + rb|
    ensures forall i :: 0 <= i < |w + [sep] + ra| ==>
              (w + [sep] + ra)[i] == (w + "_" + rb)[i]
              || (IsSeparator((w + [sep] + ra)[i]) && IsSeparator((w + "_" + rb)[i]))
  {
    var a := w + [sep] + ra;
    var b := w + "_" + rb;
    forall i | 0 <= i < |a|
      ensures a[i] == b[i] || (IsSeparator(a[i]) && IsSeparator(b[i]))
    {
      if i > |w| {
        assert a[i] == ra[i - |w| - 1];
        assert b[i] == rb[i - |w| - 1];
      }
    }
  }

  /** Words free of a character never gain it by being joined with underscores. */
  lemma {:induction false} JoinNoChar(words: seq<string>, c: char)
    requires c != '_'
    requires forall w :: w in words ==> c !in w
    ensures c !in Join("_", words)
  {
    if |words| > 1 {
      assert words[0] in words;
      assert forall w :: w in words[1..] ==> w in words;
      JoinNoChar(words[1..], c);
    } else if |words| == 1 {
      assert words[0] in words;
    }
  }

  /**
    A single alphanumeric word longer than five characters is capitalised,
    which lower-cases an "Agent" it may end with, so the suffix is added
    again: "MyAgent" becomes "MyagentAgent".
   */
  lemma LongWordGetsSuffix(w: string)
    requires IsAlnum(w) && |w| > 5
    ensures ToClassName(w) == Capitalize(w) + "Agent"
  {
    AlnumHasNoSeparator(w);
    ReplaceAbsent(w, '-', '_');
    ReplaceAbsent(w, ' ', '_');
    SplitNoSep(w, '_');
    assert Kept([w]) == [Capitalize(w)];
    var c := Capitalize(w);
    assert c[|c| - 5] == Lower(w[1..])[|w| - 6];
    assert c[|c| - 5..][0] == c[|c| - 5] != 'A';
  }

  // ---------------------------------------------------------------------
  // _generate_logging_setup

  /** One line of the generated `setup_logging` body, before rendering to text. */
  datatype SetupLine =
    | Disabled
    | LevelFromEnv(variable: Json, level: Json)
    | FormatFromEnv(variable: Json, formatStyle: Json)
    | LogFileFromEnv(variable: Json, logFile: Json)
    | LevelIs(level: Json)
    | FormatIs(formatStyle: Json)
    | LogFileIs(logFile: Json)
    | SetupCall(includeTimestamp: Json)

  predicate IsOverride(l: SetupLine) {
    l.LevelFromEnv? || l.FormatFromEnv? || l.LogFileFromEnv?
  }

  const Indent: string := "        "
  const DisabledText: string := "        # Logging disabled in OAS configuration"
  const SetupCallHead: string :=
    "        \n        dacp.setup_dacp_logging(\n            level=level,\n            format_style=format_style,\n            include_timestamp="
  const SetupCallTail: string := ",\n            log_file=log_file\n        )"

  /** The text of one line, as the f-strings write it. */
  function Render(l: SetupLine): string {
    match l
    case Disabled => DisabledText
    case LevelFromEnv(v, level) => Indent + "level = os.getenv(\"" + PyStr(v) + "\", \"" + PyStr(level) + "\")"
    case FormatFromEnv(v, f) => Indent + "format_style = os.getenv(\"" + PyStr(v) + "\", \"" + PyStr(f) + "\")"
    case LogFileFromEnv(v, lf) => Indent + "log_file = os.getenv(\"" + PyStr(v) + "\", " + PyRepr(lf) + ")"
    case LevelIs(level) => Indent + "level = \"" + PyStr(level) + "\""
    case FormatIs(f) => Indent + "format_style = \"" + PyStr(f) + "\""
    case LogFileIs(lf) => Indent + "log_file = " + PyRepr(lf)
    case SetupCall(ts) => SetupCallHead + PyStr(ts) + SetupCallTail
  }

  /** `"\n".join(lines)` of the rendered lines. */
  function Text(lines: seq<SetupLine>): string {
    Join("\n", seq(|lines|, i requires 0 <= i < |lines| => Render(lines[i])))
  }

  /**
    The override lines: one for each of level, format style and log file that
    a non-empty `env_overrides` names, in that order; `in` and `[]` raise as
    they do on whatever value `env_overrides` holds.
   */
  function OverrideLines(overrides: Json, level: Json, formatStyle: Json, logFile: Json): (r: Result<seq<SetupLine>>)
    ensures r.Ok? ==> forall i :: 0 <= i < |r.value| ==> IsOverride(r.value[i])
  {
    if !Truthy(overrides) then Ok([])
    else
      var a :- LookupIn(overrides, "level");
      var b :- LookupIn(overrides, "format_style");
      var c :- LookupIn(overrides, "log_file");
      Ok((if a.Some? then [LevelFromEnv(a.value, level)] else [])
         + (if b.Some? then [FormatFromEnv(b.value, formatStyle)] else [])
         + (if c.Some? then [LogFileFromEnv(c.value, logFile)] else []))
  }

  /**
    The lines `_generate_logging_setup` joins: the disabled comment alone, or
    the override lines (or, when there are none, the three direct
    assignments) followed by the setup call. Override lines and direct
    assignments never appear together, the setup call is always last, and
    only an `env_overrides` that is truthy but not a dict can make it raise.
   */
  function SetupPlan(cfg: Fields): (r: Result<seq<SetupLine>>)
    ensures r.Err? ==>
              Truthy(GetOr(cfg, "enabled", JBool(true)))
              && Truthy(GetOr(cfg, "env_overrides", JObj([]))) && !GetOr(cfg, "env_overrides", JObj([])).JObj?
    ensures r.Ok? ==>
              var p := r.value;
              p != [] && (p == [Disabled] || p[|p| - 1].SetupCall?)
              && ((exists i :: 0 <= i < |p| && IsOverride(p[i])) ==>
                    forall i :: 0 <= i < |p| - 1 ==> IsOverride(p[i]))
  {
    if !Truthy(GetOr(cfg, "enabled", JBool(true))) then Ok([Disabled])
    else
      var level := GetOr(cfg, "level", JStr("INFO"));
      var formatStyle := GetOr(cfg, "format_style", JStr("emoji"));
      var timestamp := GetOr(cfg, "include_timestamp", JBool(true));
      var logFile := GetOr(cfg, "log_file", JNull);
      var overrides := GetOr(cfg, "env_overrides", JObj([]));
      var overrideLines :- OverrideLines(overrides, level, formatStyle, logFile);
      var body := if overrideLines == [] then [LevelIs(level), FormatIs(formatStyle), LogFileIs(logFile)]
                  else overrideLines;
      Ok(body + [SetupCall(timestamp)])
  }

  /** `_generate_logging_setup`: appends the chosen lines one by one and joins them. */
  method GenerateLoggingSetup(cfg: Fields) returns (r: Result<string>)
    ensures SetupPlan(cfg).Ok? ==> r == Ok(Text(SetupPlan(cfg).value))
    ensures SetupPlan(cfg).Err? ==> r == Err(SetupPlan(cfg).error)
  {
    if !Truthy(GetOr(cfg, "enabled", JBool(true))) {
      return Ok(DisabledText);
    }
    var level := GetOr(cfg, "level", JStr("INFO"));
    var formatStyle := GetOr(cfg, "format_style", JStr("emoji"));
    var timestamp := GetOr(cfg, "include_timestamp", JBool(true));
    var logFile := GetOr(cfg, "log_file", JNull);
    var overrides := GetOr(cfg, "env_overrides", JObj([]));
    var lines: seq<SetupLine> := [];
    if Truthy(overrides) {
      var found :- LookupIn(overrides, "level");
      ghost var a := found;
      if found.Some? {
        lines := lines + [LevelFromEnv(found.value, level)];
      }
      found :- LookupIn(overrides, "format_style");
      ghost var b := found;
      if found.Some? {
        lines := lines + [FormatFromEnv(found.value, formatStyle)];
      }
      assert lines == (if a.Some? then [LevelFromEnv(a.value, level)] else [])
                      + (if b.Some? then [FormatFromEnv(b.value, formatStyle)] else []);
      found :- LookupIn(overrides, "log_file");
      if found.Some? {
        lines := lines + [LogFileFromEnv(found.value, logFile)];
      }
      assert lines == (if a.Some? then [LevelFromEnv(a.value, level)] else [])
                      + (if b.Some? then [FormatFromEnv(b.value, formatStyle)] else [])
                      + (if found.Some? then [LogFileFromEnv(found.value, logFile)] else []);
      assert LookupIn(overrides, "level") == Ok(a) && LookupIn(overrides, "format_style") == Ok(b);
    }
    assert OverrideLines(overrides, level, formatStyle, logFile) == Ok(lines);
    if lines == [] {
      lines := [LevelIs(level), FormatIs(formatStyle), LogFileIs(logFile)];
    }
    lines := lines + [SetupCall(timestamp)];
    assert SetupPlan(cfg) == Ok(lines);
    return Ok(Text(lines));
  }

  /** Logging switched off: the single comment line and nothing else. */
  lemma DisabledSetup(cfg: Fields)
    requires !Truthy(GetOr(cfg, "enabled", JBool(true)))
    ensures SetupPlan(cfg) == Ok([Disabled])
    ensures Text([Disabled]) == DisabledText
  {
    assert seq(1, i requires 0 <= i < 1 => Render([Disabled][i])) == [DisabledText];
  }

  /**
    Logging switched on: the setup call with the configured timestamp flag
    comes last; before it stand the override lines, one per setting named in a
    dict of overrides, in the order level, format style, log file; when there
    is none, the three direct assignments stand there instead.
   */
  lemma EnabledSetup(cfg: Fields)
    requires Truthy(GetOr(cfg, "enabled", JBool(true)))
    requires GetOr(cfg, "env_overrides", JObj([])).JObj?
    ensures var o := GetOr(cfg, "env_overrides", JObj([])).fields;
            var level := GetOr(cfg, "level", JStr("INFO"));
            var formatStyle := GetOr(cfg, "format_style", JStr("emoji"));
            var logFile := GetOr(cfg, "log_file", JNull);
            var overrideLines :=
              (if HasKey(o, "level") then [LevelFromEnv(Get(o, "level").value, level)] else [])
              + (if HasKey(o, "format_style") then [FormatFromEnv(Get(o, "format_style").value, formatStyle)] else [])
              + (if HasKey(o, "log_file") then [LogFileFromEnv(Get(o, "log_file").value, logFile)] else []);
            SetupPlan(cfg) == Ok((if overrideLines == [] then [LevelIs(level), FormatIs(formatStyle), LogFileIs(logFile)]
                                  else overrideLines)
                                 + [SetupCall(GetOr(cfg, "include_timestamp", JBool(true)))])
  {
  }

  // ---------------------------------------------------------------------
  // _generate_intelligence_config

  const ConfigOpen: string := "{"
  const ConfigClose: string := "        }"
  const EntryIndent: string := "            \""

  /** The generated line for one entry: API keys are read from the environment, other values written out. */
  function ConfigLine(key: string, value: Json): string {
    if YamlConfig.IsKeyName(key) then EntryIndent + key + "\": os.getenv(\"" + Upper(key) + "\"),"
    else EntryIndent + key + "\": " + PyRepr(value) + ","
  }

  /** The generated lines of the entries, one per entry, in order. */
  function EntryLines(cfg: Fields): (r: seq<string>)
    ensures |r| == |cfg|
    ensures forall i :: 0 <= i < |cfg| ==> r[i] == ConfigLine(cfg[i].0, cfg[i].1)
  {
    if cfg == [] then []
    else EntryLines(cfg[..|cfg| - 1]) + [ConfigLine(cfg[|cfg| - 1].0, cfg[|cfg| - 1].1)]
  }

  /** The lines `_generate_intelligence_config` joins: the entry lines between the braces. */
  function ConfigLines(cfg: Fields): (r: seq<string>)
    ensures |r| == |cfg| + 2 && r[0] == ConfigOpen && r[|r| - 1] == ConfigClose
    ensures forall i :: 0 <= i < |cfg| ==> r[i + 1] == ConfigLine(cfg[i].0, cfg[i].1)
  {
    [ConfigOpen] + EntryLines(cfg) + [ConfigClose]
  }

  /** `_generate_intelligence_config`: one line per entry, in order, between the braces. */
  method GenerateIntelligenceConfig(cfg: Fields) returns (text: string)
    ensures text == Join("\n", ConfigLines(cfg))
  {
    var lines := [ConfigOpen];
    var i := 0;
    while i < |cfg|
      invariant 0 <= i <= |cfg|
      invariant lines == [ConfigOpen] + EntryLines(cfg[..i])
    {
      var key := cfg[i].0;
      if YamlConfig.IsKeyName(key) {
        lines := lines + [EntryIndent + key + "\": os.getenv(\"" + Upper(key) + "\"),"];
      } else {
        lines := lines + [EntryIndent + key + "\": " + PyRepr(cfg[i].1) + ","];
      }
      assert cfg[..i + 1][..i] == cfg[..i];
      i := i + 1;
    }
    assert cfg[..i] == cfg;
    lines := lines + [ConfigClose];
    text := Join("\n", lines);
  }

  /**
    The configured value of an API key never reaches the generated code: two
    sections that differ only in the values of API keys generate the same lines.
   */
  lemma SecretsNotEmbedded(a: Fields, b: Fields)
    requires |a| == |b|
    requires forall i :: 0 <= i < |a| ==>
               a[i].0 == b[i].0 && (a[i].1 == b[i].1 || YamlConfig.IsKeyName(a[i].0))
    ensures ConfigLines(a) == ConfigLines(b)
  {
    assert forall i :: 0 <= i < |a| ==> ConfigLine(a[i].0, a[i].1) == ConfigLine(b[i].0, b[i].1);
  }
}

=== FILE: protocol.dfy ===
/**
  The structured messages exchanged between agents and tools
  (dacp/protocol.py): a tool request `{"tool_request": {"name", "args"}}`,
  a tool result `{"tool_result": {"name", "result"}}` and a final answer
  `{"final_response": ...}`.
 */
module Protocol {
  import opened Values
  import opened PyText

  /**
    `json.loads` is not modelled: it is any partial decoder, which either
    yields a value or raises a ValueError (JSONDecodeError) with its message.
   */
  type Decoder = string -> Result<Json>

  const MalformedPrefix: string := "Malformed agent response: "

  /**
    `parse_agent_response`: a dict is returned as it is; anything else is
    handed to the decoder (which takes only text; any other type makes it raise
    TypeError), and every decoder failure becomes a ValueError whose message
    starts with "Malformed agent response: ".
   */
  function ParseAgentResponse(response: Json, decode: Decoder): (r: Result<Json>)
    ensures response.JObj? ==> r == Ok(response)
    ensures r.Ok? ==> r == Ok(response) || (response.JStr? && r == decode(response.s))
    ensures response.JStr? && decode(response.s).Ok? ==> r == decode(response.s)
    ensures r.Err? <==> !response.JObj? && (!response.JStr? || decode(response.s).Err?)
    ensures r.Err? ==> r.error.ValueError? && MalformedPrefix <= r.error.detail
  {
    match response
    case JObj(_) => Ok(response)
    case JStr(text) =>
      (match decode(text)
       case Ok(v) => Ok(v)
       case Err(e) => Err(ValueError(MalformedPrefix + ErrorText(e))))
    case _ =>
      Err(ValueError(MalformedPrefix + "the JSON object must be str, bytes or bytearray, not "
                     + TypeName(response)))
  }

  /** `is_tool_request`: some entry of the message is keyed `tool_request`. */
  predicate IsToolRequest(msg: Fields): (b: bool)
    ensures b <==> exists i :: 0 <= i < |msg| && msg[i].0 == "tool_request"
  {
    HasKeyIff(msg, "tool_request");
    HasKey(msg, "tool_request")
  }

  /** `is_final_response`: some entry of the message is keyed `final_response`. */
  predicate IsFinalResponse(msg: Fields): (b: bool)
    ensures b <==> exists i :: 0 <= i < |msg| && msg[i].0 == "final_response"
  {
    HasKeyIff(msg, "final_response");
    HasKey(msg, "final_response")
  }

  /**
    `get_tool_request`: the request's `name` and its `args` (an empty dict
    when absent). A missing `tool_request` or `name` raises KeyError, and a
    request that is not a dict cannot be subscripted.
   */
  function GetToolRequest(msg: Fields): (r: Result<(Json, Json)>)
    ensures r.Ok? <==> IsToolRequest(msg) && GetOr(msg, "tool_request", JNull).JObj?
                       && HasKey(GetOr(msg, "tool_request", JNull).fields, "name")
    ensures r.Ok? ==>
              var req := GetOr(msg, "tool_request", JNull).fields;
              Get(req, "name") == Some(r.value.0) && r.value.1 == GetOr(req, "args", JObj([]))
    ensures !IsToolRequest(msg) ==> r == Err(KeyError("tool_request"))
  {
    var req :- Lookup(msg, "tool_request");
    var name :- Index(req, "name");
    Ok((name, GetOr(req.fields, "args", JObj([]))))
  }

  /** `wrap_tool_result` */
  function WrapToolResult(name: string, result: Json): (r: Fields)
    ensures Keys(r) == ["tool_result"]
    ensures Lookup(r, "tool_result").Ok?
    ensures Index(Lookup(r, "tool_result").value, "name") == Ok(JStr(name))
    ensures Index(Lookup(r, "tool_result").value, "result") == Ok(result)
  {
    var inner := [("name", JStr(name)), ("result", result)];
    assert inner[1..] == [("result", result)];
    assert Get(inner, "result") == Some(result);
    [("tool_result", JObj(inner))]
  }

  /** `get_final_response`: raises KeyError unless `final_response` is present. */
  function GetFinalResponse(msg: Fields): (r: Result<Json>)
    ensures r.Ok? <==> IsFinalResponse(msg)
    ensures r.Ok? ==> Get(msg, "final_response") == Some(r.value)
    ensures r.Err? ==> r.error == KeyError("final_response")
  {
    Lookup(msg, "final_response")
  }

  // ---------------------------------------------------------------------
  // Properties

  /** The key test ignores every other key: adding or updating one never changes it. */
  lemma IsToolRequestIgnoresOtherKeys(msg: Fields, k: string, v: Json)
    requires k != "tool_request"
    ensures IsToolRequest(Put(msg, k, v)) == IsToolRequest(msg)
    ensures IsFinalResponse(Put(msg, k, v)) == (k == "final_response" || IsFinalResponse(msg))
  {
    PutKeys(msg, k, v);
  }

  /** A wrapped tool result is neither a tool request nor a final response. */
  lemma WrappedResultIsNeither(name: string, result: Json)
    ensures !IsToolRequest(WrapToolResult(name, result))
    ensures !IsFinalResponse(WrapToolResult(name, result))
  {
    assert Keys(WrapToolResult(name, result)) == ["tool_result"];
  }

  /** Reading back a request written as `{"tool_request": {"name": n, "args": a}}`. */
  lemma ToolRequestRoundTrip(name: Json, args: Json, before: Fields, after: Fields)
    requires !HasKey(before, "tool_request")
    ensures var msg := before + [("tool_request", JObj([("name", name), ("args", args)]))] + after;
            GetToolRequest(msg) == Ok((name, args))
    ensures var msg := before + [("tool_request", JObj([("name", name)]))] + after;
            GetToolRequest(msg) == Ok((name, JObj([])))
  {
    var req := [("name", name), ("args", args)];
    assert req[1..] == [("args", args)];
    assert Get(req, "args") == Some(args);
    var full := [("tool_request", JObj(req))] + after;
    var bare := [("tool_request", JObj([("name", name)]))] + after;
    assert before + [full[0]] + after == before + full;
    assert before + [bare[0]] + after == before + bare;
    GetAppend(before, full, "tool_request");
    GetAppend(before, bare, "tool_request");
  }
}

=== FILE: pytext.dfy ===
/**
  The parts of Python's string and object protocol that the DACP code
  relies on: `str()` and `repr()` of data values, ASCII case mapping,
  `split`/`join`, subscripting, `os.getenv` and the text of
  `str(pathlib.Path(p))`.
 */
module PyText {
  import opened Values

  // ---------------------------------------------------------------------
  // Characters and case (ASCII)

  predicate IsUpperChar(c: char) { 'A' <= c <= 'Z' }
  predicate IsLowerChar(c: char) { 'a' <= c <= 'z' }
  predicate IsDigitChar(c: char) { '0' <= c <= '9' }
  predicate IsAlnumChar(c: char) { IsUpperChar(c) || IsLowerChar(c) || IsDigitChar(c) }

  function UpperChar(c: char): (u: char)
    ensures IsAlnumChar(c) <==> IsAlnumChar(u)
    ensures !IsLowerChar(u)
  {
    if IsLowerChar(c) then (c as int - 'a' as int + 'A' as int) as char else c
  }

  function LowerChar(c: char): (l: char)
    ensures IsAlnumChar(c) <==> IsAlnumChar(l)
    ensures !IsUpperChar(l)
  {
    if IsUpperChar(c) then (c as int - 'A' as int + 'a' as int) as char else c
  }

  /** `s.upper()` */
  function Upper(s: string): (u: string)
    ensures |u| == |s|
    ensures forall i :: 0 <= i < |s| ==> u[i] == UpperChar(s[i])
  {
    if s == [] then [] else [UpperChar(s[0])] + Upper(s[1..])
  }

  /** `s.lower()` */
  function Lower(s: string): (l: string)
    ensures |l| == |s|
    ensures forall i :: 0 <= i < |s| ==> l[i] == LowerChar(s[i])
  {
    if s == [] then [] else [LowerChar(s[0])] + Lower(s[1..])
  }

  /** `s.isalnum()`: non-empty and made of letters and digits only. */
  predicate IsAlnum(s: string) {
    s != [] && forall i :: 0 <= i < |s| ==> IsAlnumChar(s[i])
  }

  /** `s.capitalize()`: first character upper case, the rest lower case. */
  function Capitalize(s: string): (c: string)
    ensures |c| == |s|
    ensures IsAlnum(s) ==> IsAlnum(c)
  {
    if s == [] then [] else [UpperChar(s[0])] + Lower(s[1..])
  }

  // ---------------------------------------------------------------------
  // Substrings

  /** `s.endswith(suffix)` */
  predicate EndsWith(s: string, suffix: string) {
    |suffix| <= |s| && s[|s| - |suffix|..] == suffix
  }

  /** `sub in s` for strings */
  predicate IsSubstring(sub: string, s: string) {
    sub <= s || (s != [] && IsSubstring(sub, s[1..]))
  }

  /** `s.replace(old, new)` for single characters */
  function ReplaceChar(s: string, from: char, to: char): (r: string)
    ensures |r| == |s|
    ensures forall i :: 0 <= i < |s| ==> r[i] == if s[i] == from then to else s[i]
  {
    if s == [] then [] else [if s[0] == from then to else s[0]] + ReplaceChar(s[1..], from, to)
  }

  /** `sep.join(parts)` */
  function Join(sep: string, parts: seq<string>): string {
    if parts == [] then ""
    else if |parts| == 1 then parts[0]
    else parts[0] + sep + Join(sep, parts[1..])
  }

  /** `s.split(sep)` for a one-character separator: never empty, empty pieces kept. */
  function Split(s: string, sep: char): (parts: seq<string>)
    ensures |parts| >= 1
    ensures forall p :: p in parts ==> sep !in p
  {
    if s == [] then [""]
    else
      var rest := Split(s[1..], sep);
      if s[0] == sep then [""] + rest
      else [[s[0]] + rest[0]] + rest[1..]
  }

  /** Splitting and joining again gives back the original text. */
  lemma {:induction false} SplitJoin(s: string, sep: char)
    ensures Join([sep], Split(s, sep)) == s
  {
    if s != [] {
      var rest := Split(s[1..], sep);
      SplitJoin(s[1..], sep);
      if s[0] == sep {
        assert Split(s, sep)[1..] == rest;
      } else {
        var parts := [[s[0]] + rest[0]] + rest[1..];
        if |rest| == 1 {
          assert Join([sep], parts) == [s[0]] + rest[0];
        } else {
          assert parts[1..] == rest[1..];
          assert Join([sep], rest) == rest[0] + [sep] + Join([sep], rest[1..]);
        }
      }
    }
  }

  /** Text without the separator is one piece. */
  lemma {:induction false} SplitNoSep(s: string, sep: char)
    requires sep !in s
    ensures Split(s, sep) == [s]
  {
    if s != [] {
      assert sep !in s[1..] by {
        assert forall i :: 0 <= i < |s[1..]| ==> s[1..][i] == s[i + 1];
      }
      SplitNoSep(s[1..], sep);
      assert [s[0]] + s[1..] == s;
    }
  }

  /** A first piece free of the separator is split off at the first separator. */
  lemma {:induction false} SplitAfter(a: string, sep: char, b: string)
    requires sep !in a
    ensures Split(a + [sep] + b, sep) == [a] + Split(b, sep)
  {
    if a == [] {
      assert a + [sep] + b == [sep] + b;
      assert ([sep] + b)[1..] == b;
    } else {
      assert (a + [sep] + b)[1..] == a[1..] + [sep] + b;
      assert sep !in a[1..] by {
        assert forall i :: 0 <= i < |a[1..]| ==> a[1..][i] == a[i + 1];
      }
      SplitAfter(a[1..], sep, b);
      assert [a[0]] + a[1..] == a;
    }
  }

  /** Splitting undoes joining with the same separator when no piece holds it. */
  lemma {:induction false} JoinSplit(parts: seq<string>, sep: char)
    requires parts != []
    requires forall p :: p in parts ==> sep !in p
    ensures Split(Join([sep], parts), sep) == parts
  {
    if |parts| == 1 {
      SplitNoSep(parts[0], sep);
    } else {
      assert parts[0] in parts;
      assert forall p :: p in parts[1..] ==> p in parts;
      JoinSplit(parts[1..], sep);
      SplitAfter(parts[0], sep, Join([sep], parts[1..]));
    }
  }

  // ---------------------------------------------------------------------
  // Numbers

  function DigitChar(d: nat): char
    requires d < 10
  {
    ('0' as int + d) as char
  }

  function NatToDecimal(n: nat): (s: string)
    ensures s != []
    ensures forall i :: 0 <= i < |s| ==> IsDigitChar(s[i])
  {
    if n < 10 then [DigitChar(n)] else NatToDecimal(n / 10) + [DigitChar(n % 10)]
  }

  /** `str(i)` for an int */
  function IntToDecimal(i: int): string {
    if i < 0 then "-" + NatToDecimal(-i) else NatToDecimal(i)
  }

  function HexDigit(d: nat): char
    requires d < 16
  {
    if d < 10 then DigitChar(d) else ('a' as int + d - 10) as char
  }

  // ---------------------------------------------------------------------
  // str() and repr()

  /** `type(x).__name__` */
  function TypeName(j: Json): string {
    match j
    case JNull => "NoneType"
    case JBool(_) => "bool"
    case JInt(_) => "int"
    case JStr(_) => "str"
    case JArr(_) => "list"
    case JObj(_) => "dict"
  }

  /** The AttributeError raised when a value of the wrong type lacks a method. */
  function NoAttribute(v: Json, attr: string): Error {
    AttributeError("'" + TypeName(v) + "' object has no attribute '" + attr + "'")
  }

  /** One character of a string literal as `repr` writes it between quotes `q`. */
  function EscapeChar(c: char, q: char): string {
    if c == q || c == '\\' then ['\\', c]
    else if c == '\t' then "\\t"
    else if c == '\n' then "\\n"
    else if c == '\r' then "\\r"
    else if c < ' ' || c == '\U{7F}' then
      "\\x" + [HexDigit(c as int / 16), HexDigit(c as int % 16)]
    else [c]
  }

  function EscapeAll(s: string, q: char): string {
    if s == [] then "" else EscapeChar(s[0], q) + EscapeAll(s[1..], q)
  }

  /** `repr(s)`: single quotes unless the text holds a single quote and no double quote. */
  function StrRepr(s: string): (r: string)
    ensures |r| >= 2 && r[0] == r[|r| - 1] && r[0] in {'\'', '"'}
  {
    var q := if '\'' in s && '"' !in s then '"' else '\'';
    [q] + EscapeAll(s, q) + [q]
  }

  /** `repr(x)` */
  function PyRepr(j: Json): string
    decreases j
  {
    match j
    case JNull => "None"
    case JBool(b) => if b then "True" else "False"
    case JInt(i) => IntToDecimal(i)
    case JStr(s) => StrRepr(s)
    case JArr(items) =>
      "[" + Join(", ", seq(|items|, k requires 0 <= k < |items| => PyRepr(items[k]))) + "]"
    case JObj(fs) =>
      "{" + Join(", ", seq(|fs|, k requires 0 <= k < |fs| => StrRepr(fs[k].0) + ": " + PyRepr(fs[k].1))) + "}"
  }

  /** `str(x)`, which is what an f-string interpolates: a string is itself. */
  function PyStr(j: Json): (r: string)
    ensures j.JStr? ==> r == j.s
  {
    if j.JStr? then j.s else PyRepr(j)
  }

  /** The text of an exception as `str(e)` gives it (a KeyError shows the repr of its key). */
  function ErrorText(e: Error): string {
    match e
    case KeyError(k) => StrRepr(k)
    case TypeError(d) => d
    case AttributeError(d) => d
    case ValueError(d) => d
  }

  // ---------------------------------------------------------------------
  // Subscripts, membership and the environment

  /** `x[key]` with a string key, for any value `x`. */
  function Index(x: Json, key: string): (r: Result<Json>)
    ensures x.JObj? ==> r == Lookup(x.fields, key)
    ensures !x.JObj? ==> r.Err? && r.error.TypeError?
  {
    match x
    case JObj(fs) => Lookup(fs, key)
    case JStr(_) => Err(TypeError("string indices must be integers, not 'str'"))
    case JArr(_) => Err(TypeError("list indices must be integers or slices, not str"))
    case _ => Err(TypeError("'" + TypeName(x) + "' object is not subscriptable"))
  }

  /**
    The idiom `if key in x: ... x[key] ...` for any value `x`: the value under
    `key` when the membership test holds, None when it does not, or the
    exception either step raises (a list or string that "contains" the key
    still cannot be indexed by it).
   */
  function LookupIn(x: Json, key: string): (r: Result<Option<Json>>)
    ensures x.JObj? ==> r == Ok(Get(x.fields, key))
  {
    match x
    case JObj(fs) => Ok(Get(fs, key))
    case JArr(items) =>
      if JStr(key) in items then Err(TypeError("list indices must be integers or slices, not str"))
      else Ok(None)
    case JStr(s) =>
      if IsSubstring(key, s) then Err(TypeError("string indices must be integers, not 'str'"))
      else Ok(None)
    case _ => Err(TypeError("argument of type '" + TypeName(x) + "' is not iterable"))
  }

  /** `os.getenv(name, default)`: the name must be a string. */
  function Getenv(env: map<string, string>, name: Json, default: Json): (r: Result<Json>)
    ensures r.Ok? <==> name.JStr?
    ensures name.JStr? && name.s in env ==> r == Ok(JStr(env[name.s]))
    ensures name.JStr? && name.s !in env ==> r == Ok(default)
  {
    match name
    case JStr(n) => Ok(if n in env then JStr(env[n]) else default)
    case _ => Err(TypeError("str expected, not " + TypeName(name)))
  }

  // ---------------------------------------------------------------------
  // pathlib

  /** The pieces of a POSIX path that `pathlib` keeps: empty and "." pieces go. */
  function PathParts(pieces: seq<string>): seq<string> {
    if pieces == [] then []
    else if pieces[0] == "" || pieces[0] == "." then PathParts(pieces[1..])
    else [pieces[0]] + PathParts(pieces[1..])
  }

  /**
    `str(pathlib.PurePosixPath(p))`: a leading "/" is kept (two leading
    slashes, exactly, are kept as two), repeated slashes and "." pieces
    collapse, a trailing slash goes, and an empty result is ".".
   */
  function NormPath(p: string): (r: string)
    ensures r != []
  {
    var root :=
      if |p| >= 2 && p[..2] == "//" && !(|p| >= 3 && p[2] == '/') then "//"
      else if |p| >= 1 && p[0] == '/' then "/"
      else "";
    var body := Join("/", PathParts(Split(p, '/')));
    if root + body == "" then "." else root + body
  }
}

=== FILE: tools.dfy ===
/**
  The tool registry of dacp/tools.py: tool names mapped to functions, with
  the built-in `file_writer` tool and its path allow-list.
 */
module Tools {
  import opened Values
  import opened PyText

  /** What a tool does to the outside world; the file system itself is not modelled. */
  datatype Effect = WriteFile(path: string, content: string)

  /** What running a tool gives: its result or exception, and the effects it performed. */
  datatype ToolOutcome = ToolOutcome(result: Result<Json>, effects: seq<Effect>)

  /** A tool receives its keyword arguments as a dict. */
  type Tool = Fields -> ToolOutcome

  /** The two textual prefixes under which `file_writer` may write. */
  const AllowedPrefixes: seq<string> := ["./output/", "/tmp/"]

  /** `any(path.startswith(p) for p in prefixes)` */
  predicate AnyPrefix(prefixes: seq<string>, path: string) {
    prefixes != [] && (prefixes[0] <= path || AnyPrefix(prefixes[1..], path))
  }

  /** The `any()` loop over the prefixes accepts exactly when one of them starts the path. */
  lemma {:induction false} AnyPrefixIff(prefixes: seq<string>, path: string)
    ensures AnyPrefix(prefixes, path) <==> exists p :: p in prefixes && p <= path
  {
    if prefixes != [] {
      AnyPrefixIff(prefixes[1..], path);
      if exists p :: p in prefixes && p <= path {
        var p :| p in prefixes && p <= path;
        if p != prefixes[0] {
          assert p in prefixes[1..];
        }
      }
      if prefixes[0] <= path {
        assert prefixes[0] in prefixes;
      } else if AnyPrefix(prefixes[1..], path) {
        var p :| p in prefixes[1..] && p <= path;
        assert p in prefixes;
      }
    }
  }

  /** The allow-list test of `file_writer`: exactly "starts with ./output/ or with /tmp/". */
  predicate PathAllowed(path: string): (b: bool)
    ensures b <==> "./output/" <= path || "/tmp/" <= path
  {
    AnyPrefixIff(AllowedPrefixes, path);
    assert forall p :: p in AllowedPrefixes <==> p == "./output/" || p == "/tmp/";
    AnyPrefix(AllowedPrefixes, path)
  }

  /**
    `file_writer(path, content)`: a path outside the allow-list raises
    "Path not allowed" before anything is written; otherwise the content is
    written and the result names the path.
   */
  function FileWriter(path: string, content: string): (out: ToolOutcome)
    ensures out.result.Ok? <==> PathAllowed(path)
    ensures !PathAllowed(path) ==> out.result == Err(ValueError("Path not allowed")) && out.effects == []
    ensures PathAllowed(path) ==>
              out.effects == [WriteFile(path, content)]
              && out.result == Ok(JObj([("result", JStr("Written to " + path))]))
  {
    if !PathAllowed(path) then ToolOutcome(Err(ValueError("Path not allowed")), [])
    else ToolOutcome(Ok(JObj([("result", JStr("Written to " + path))])), [WriteFile(path, content)])
  }

  /** The keyword arguments name no parameter other than `path` and `content`. */
  predicate OnlyPathAndContent(args: Fields) {
    forall k :: k in Keys(args) ==> k == "path" || k == "content"
  }

  /**
    `file_writer(**args)`: binding the keyword arguments (exactly `path` and
    `content`) and then running the tool.
   */
  function FileWriterTool(args: Fields): (out: ToolOutcome)
    ensures out.result.Ok? ==>
              Get(args, "path").Some? && Get(args, "path").value.JStr?
              && PathAllowed(Get(args, "path").value.s)
    ensures forall e :: e in out.effects ==> PathAllowed(e.path)
    ensures (exists k :: k in Keys(args) && k != "path" && k != "content") ==>
              out.result.Err? && out.result.error.TypeError? && out.effects == []
    ensures !HasKey(args, "path") || !HasKey(args, "content") ==>
              out.result.Err? && out.result.error.TypeError? && out.effects == []
    ensures OnlyPathAndContent(args) && Get(args, "path").Some? && !Get(args, "path").value.JStr?
            && HasKey(args, "content") ==>
              out == ToolOutcome(Err(NoAttribute(Get(args, "path").value, "startswith")), [])
    ensures OnlyPathAndContent(args) && Get(args, "path").Some? && Get(args, "path").value.JStr?
            && Get(args, "content").Some? && Get(args, "content").value.JStr? ==>
              out == FileWriter(Get(args, "path").value.s, Get(args, "content").value.s)
    ensures OnlyPathAndContent(args) && Get(args, "path").Some? && Get(args, "path").value.JStr?
            && PathAllowed(Get(args, "path").value.s)
            && Get(args, "content").Some? && !Get(args, "content").value.JStr? ==>
              out.result.Err? && out.result.error.TypeError?
              && out.effects == [WriteFile(Get(args, "path").value.s, "")]
  {
    if !OnlyPathAndContent(args) then
      ToolOutcome(Err(TypeError("file_writer() got an unexpected keyword argument")), [])
    else if !HasKey(args, "path") || !HasKey(args, "content") then
      ToolOutcome(Err(TypeError("file_writer() missing a required positional argument")), [])
    else
      WriteBound(GetOr(args, "path", JNull), GetOr(args, "content", JNull))
  }

  /**
    The body of `file_writer` once its two parameters are bound. A path that
    is not text has no `startswith`; content that is not text is refused by
    `write` after `open(path, "w")` has already emptied the file.
   */
  function WriteBound(path: Json, content: Json): (out: ToolOutcome)
    ensures !path.JStr? ==> out == ToolOutcome(Err(NoAttribute(path, "startswith")), [])
    ensures path.JStr? && content.JStr? ==> out == FileWriter(path.s, content.s)
    ensures path.JStr? && PathAllowed(path.s) && !content.JStr? ==>
              out.result.Err? && out.result.error.TypeError? && out.effects == [WriteFile(path.s, "")]
    ensures out.result.Ok? ==> path.JStr? && PathAllowed(path.s)
    ensures forall e :: e in out.effects ==> PathAllowed(e.path)
  {
    if !path.JStr? then
      ToolOutcome(Err(NoAttribute(path, "startswith")), [])
    else if !PathAllowed(path.s) then
      FileWriter(path.s, "")
    else if !content.JStr? then
      ToolOutcome(Err(TypeError("write() argument must be str, not " + TypeName(content))),
                  [WriteFile(path.s, "")])
    else
      FileWriter(path.s, content.s)
  }

  /** `TOOL_REGISTRY` with `register_tool` and `run_tool`. */
  class ToolRegistry {
    var tools: map<string, Tool>

    /** Module initialisation: an empty registry, then `file_writer` registered. */
    constructor ()
      ensures tools == map["file_writer" := FileWriterTool]
    {
      tools := map[];
      new;
      RegisterTool("file_writer", FileWriterTool);
    }

    /** `register_tool`: adds the tool, silently replacing one of the same name. */
    method RegisterTool(toolId: string, f: Tool)
      modifies this
      ensures tools == old(tools)[toolId := f]
    {
      tools := tools[toolId := f];
    }

    /** `run_tool`: an unknown name raises "Unknown tool: <name>"; otherwise the tool's own outcome. */
    method RunTool(toolId: string, args: Fields) returns (out: ToolOutcome)
      ensures toolId !in tools ==> out == ToolOutcome(Err(ValueError("Unknown tool: " + toolId)), [])
      ensures toolId in tools ==> out == tools[toolId](args)
    {
      if toolId !in tools {
        return ToolOutcome(Err(ValueError("Unknown tool: " + toolId)), []);
      }
      out := tools[toolId](args);
    }
  }

  // ---------------------------------------------------------------------
  // Properties of the path policy

  /**
    The test is textual: whatever follows an allowed prefix is accepted,
    including `..` pieces that lead out of the directory, and an allowed path
    stays allowed whatever is appended to it.
   */
  lemma AllowedIsTextual(path: string, suffix: string)
    ensures PathAllowed(path) ==> PathAllowed(path + suffix)
    ensures PathAllowed("/tmp/../etc/passwd")
    ensures !PathAllowed("/etc/passwd") && !PathAllowed("output/a.txt") && !PathAllowed("/tmp")
  {
    if "./output/" <= path {
      assert (path + suffix)[..9] == path[..9];
    } else if "/tmp/" <= path {
      assert (path + suffix)[..5] == path[..5];
    }
    assert "/etc/passwd"[1] != "/tmp/"[1] && "/etc/passwd"[0] != "./output/"[0];
    assert "output/a.txt"[0] != "/tmp/"[0] && "output/a.txt"[0] != "./output/"[0];
  }

  /**
    `run_tool("file_writer", {"path": p, "content": c})`, in either order of
    the keys, is `file_writer(p, c)`: an allowed path is written with the
    content and named in the result.
   */
  lemma FileWriterCall(p: string, c: string)
    ensures FileWriterTool([("path", JStr(p)), ("content", JStr(c))]) == FileWriter(p, c)
    ensures FileWriterTool([("content", JStr(c)), ("path", JStr(p))]) == FileWriter(p, c)
    ensures PathAllowed(p) ==>
              FileWriterTool([("path", JStr(p)), ("content", JStr(c))])
              == ToolOutcome(Ok(JObj([("result", JStr("Written to " + p))])), [WriteFile(p, c)])
  {
    var a := [("path", JStr(p)), ("content", JStr(c))];
    var b := [("content", JStr(c)), ("path", JStr(p))];
    KeysAt(a);
    KeysAt(b);
    assert Keys(a) == ["path", "content"] && Keys(b) == ["content", "path"];
    GetAt(a, 0);
    GetAt(a, 1);
    GetAt(b, 0);
    GetAt(b, 1);
  }
}

=== FILE: values.dfy ===
/**
  Python values as the DACP code sees them: JSON-like data, ordered
  dictionaries, and the exceptions a dictionary access can raise.
 */
module Values {

  datatype Option<+T> = None | Some(value: T)

  /** The Python exception kinds the modelled code raises, with their message text. */
  datatype Error =
    | KeyError(key: string)
    | TypeError(detail: string)
    | AttributeError(detail: string)
    | ValueError(detail: string)

  /** A returned value or a raised exception; usable with `:-`. */
  datatype Result<+T> = Ok(value: T) | Err(error: Error) {
    predicate IsFailure() { Err? }
    function PropagateFailure<U>(): Result<U> requires Err? { Err(error) }
    function Extract(): T requires Ok? { value }
  }

  /**
    A decoded JSON / YAML value. Objects keep their keys in insertion order,
    as Python dictionaries do.
   */
  datatype Json =
    | JNull
    | JBool(b: bool)
    | JInt(i: int)
    | JStr(s: string)
    | JArr(items: seq<Json>)
    | JObj(fields: Fields)

  /** A Python dict with string keys: its entries in insertion order. */
  type Fields = seq<(string, Json)>

  /** `list(d.keys())` */
  function Keys(fs: Fields): (ks: seq<string>)
    ensures |ks| == |fs|
  {
    if fs == [] then [] else [fs[0].0] + Keys(fs[1..])
  }

  /** `k in d` */
  predicate HasKey(fs: Fields, k: string) {
    k in Keys(fs)
  }

  /** The entries of a real dict have pairwise distinct keys. */
  ghost predicate DistinctKeys(fs: Fields) {
    forall i, j :: 0 <= i < j < |fs| ==> fs[i].0 != fs[j].0
  }

  /** `d.get(k)`: the value stored under `k`, if any. */
  function Get(fs: Fields, k: string): (r: Option<Json>)
    ensures r.Some? <==> HasKey(fs, k)
  {
    if fs == [] then None
    else if fs[0].0 == k then Some(fs[0].1)
    else Get(fs[1..], k)
  }

  /** `d.get(k, default)` */
  function GetOr(fs: Fields, k: string, default: Json): Json {
    match Get(fs, k)
    case Some(v) => v
    case None => default
  }

  /** `d[k]`: raises KeyError when `k` is absent. */
  function Lookup(fs: Fields, k: string): (r: Result<Json>)
    ensures r.Ok? <==> HasKey(fs, k)
    ensures r.Ok? ==> Get(fs, k) == Some(r.value)
    ensures r.Err? ==> r.error == KeyError(k)
  {
    match Get(fs, k)
    case Some(v) => Ok(v)
    case None => Err(KeyError(k))
  }

  /**
    `d[k] = v`: an existing key keeps its position and gets the new value,
    a new key is appended at the end.
   */
  function Put(fs: Fields, k: string, v: Json): (r: Fields)
    ensures Get(r, k) == Some(v)
    ensures forall k' :: k' != k ==> Get(r, k') == Get(fs, k')
  {
    if fs == [] then [(k, v)]
    else if fs[0].0 == k then
      ConsFacts((k, v), fs[1..]);
      [(k, v)] + fs[1..]
    else
      var rest := Put(fs[1..], k, v);
      ConsFacts(fs[0], rest);
      [fs[0]] + rest
  }

  /** Assignment never reorders keys: a new key goes last, an old one stays put. */
  lemma {:induction false} PutKeys(fs: Fields, k: string, v: Json)
    ensures Keys(Put(fs, k, v)) == if HasKey(fs, k) then Keys(fs) else Keys(fs) + [k]
  {
    if fs == [] {
    } else if fs[0].0 == k {
      ConsFacts((k, v), fs[1..]);
    } else {
      PutKeys(fs[1..], k, v);
      ConsFacts(fs[0], Put(fs[1..], k, v));
      assert Keys(fs) == [fs[0].0] + Keys(fs[1..]);
    }
  }

  /** How the dictionary views read an entry put in front of others. */
  lemma ConsFacts(e: (string, Json), fs: Fields)
    ensures Keys([e] + fs) == [e.0] + Keys(fs)
    ensures forall k :: Get([e] + fs, k) == if e.0 == k then Some(e.1) else Get(fs, k)
  {
    assert ([e] + fs)[1..] == fs;
  }

  /** Looking a key up past entries that do not hold it. */
  lemma {:induction false} GetAppend(before: Fields, rest: Fields, k: string)
    requires !HasKey(before, k)
    ensures Get(before + rest, k) == Get(rest, k)
  {
    if before != [] {
      assert (before + rest)[0] == before[0];
      assert (before + rest)[1..] == before[1..] + rest;
      assert Keys(before) == [before[0].0] + Keys(before[1..]);
      GetAppend(before[1..], rest, k);
    } else {
      assert before + rest == rest;
    }
  }

  /** Reading the entry at position j of a dict whose earlier entries carry other keys. */
  lemma {:induction false} GetAt(fs: Fields, j: nat)
    requires j < |fs|
    requires forall i :: 0 <= i < j ==> fs[i].0 != fs[j].0
    ensures Get(fs, fs[j].0) == Some(fs[j].1)
  {
    if j > 0 {
      GetAt(fs[1..], j - 1);
    }
  }

  /** The keys of a dict are the first components of its entries, position by position. */
  lemma {:induction false} KeysAt(fs: Fields)
    ensures forall j :: 0 <= j < |fs| ==> Keys(fs)[j] == fs[j].0
  {
    if fs != [] {
      KeysAt(fs[1..]);
    }
  }

  /** `k in d` holds exactly when some entry of `d` carries `k`. */
  lemma HasKeyIff(fs: Fields, k: string)
    ensures HasKey(fs, k) <==> exists i :: 0 <= i < |fs| && fs[i].0 == k
  {
    KeysAt(fs);
  }

  /** A dict none of whose entries carries `k` does not hold `k`. */
  lemma {:induction false} NoKey(fs: Fields, k: string)
    requires forall e :: e in fs ==> e.0 != k
    ensures !HasKey(fs, k) && Get(fs, k) == None
  {
    if fs != [] {
      assert forall e :: e in fs[1..] ==> e in fs;
      NoKey(fs[1..], k);
      assert Keys(fs) == [fs[0].0] + Keys(fs[1..]);
    }
  }

  /** `list(a.keys()) + list(b.keys())` are the keys of the entries of `a` followed by those of `b`. */
  lemma {:induction false} KeysAppend(a: Fields, b: Fields)
    ensures Keys(a + b) == Keys(a) + Keys(b)
  {
    if a == [] {
      assert a + b == b;
    } else {
      assert (a + b)[1..] == a[1..] + b;
      KeysAppend(a[1..], b);
    }
  }

  /** Python truthiness: None, False, 0 and empty containers are false. */
  predicate Truthy(j: Json) {
    match j
    case JNull => false
    case JBool(b) => b
    case JInt(i) => i != 0
    case JStr(s) => s != ""
    case JArr(items) => items != []
    case JObj(fs) => fs != []
  }
}

=== FILE: yamlconfig.dfy ===
/**
  The configuration handling of examples/yaml_config_interface.py: turning
  the `logging` section of an agent configuration into DACP logging
  settings, resolving API keys of the `intelligence` section from the
  environment, and dispatching a message to the first capability with the
  task's name. The environment (`os.environ`) is a parameter.
 */
module YamlConfig {
  import opened Values
  import opened PyText

  type Env = map<string, string>

  // ---------------------------------------------------------------------
  // AgentConfigLoader.extract_logging_config

  const NotPathLike: string := "expected str, bytes or os.PathLike object, not "

  /**
    One setting with an environment override: the configured value (or the
    default) unless the setting is named in `env_overrides`, in which case the
    named variable wins when it is set. The membership test and the lookup
    follow Python on whatever value `env_overrides` holds.
   */
  function Setting(section: Fields, overrides: Json, key: string, default: Json, env: Env): (r: Result<Json>)
    ensures overrides.JObj? && !HasKey(overrides.fields, key) ==> r == Ok(GetOr(section, key, default))
    ensures overrides.JObj? && HasKey(overrides.fields, key) ==>
              r == Getenv(env, Get(overrides.fields, key).value, GetOr(section, key, default))
    ensures r.Ok? && r.value != GetOr(section, key, default) ==>
              overrides.JObj? && Get(overrides.fields, key).Some?
              && Get(overrides.fields, key).value.JStr? && Get(overrides.fields, key).value.s in env
              && r.value == JStr(env[Get(overrides.fields, key).value.s])
  {
    var configured := GetOr(section, key, default);
    var named :- LookupIn(overrides, key);
    match named
    case None => Ok(configured)
    case Some(name) => Getenv(env, name, configured)
  }

  /**
    `if log_file: ... str(Path(log_file))`: no file for a falsy value, the
    normalised path for text, and TypeError for anything else.
   */
  function LogFilePath(logFile: Json): (r: Result<Option<string>>)
    ensures r.Ok? && r.value.Some? <==> Truthy(logFile) && logFile.JStr?
    ensures r.Ok? && r.value.Some? ==> r.value.value == NormPath(logFile.s)
    ensures r.Err? <==> Truthy(logFile) && !logFile.JStr?
  {
    if !Truthy(logFile) then Ok(None)
    else if logFile.JStr? then Ok(Some(NormPath(logFile.s)))
    else Err(TypeError(NotPathLike + TypeName(logFile)))
  }

  /** The processed logging configuration of an enabled section. */
  function Processed(level: Json, formatStyle: Json, logPath: Option<string>, timestamp: Json): (r: Fields)
    ensures Keys(r) == ["level", "format_style"] + (if logPath.Some? then ["log_file"] else [])
                       + ["include_timestamp", "enabled"]
    ensures Get(r, "level") == Some(level) && Get(r, "format_style") == Some(formatStyle)
    ensures Get(r, "log_file") == if logPath.Some? then Some(JStr(logPath.value)) else None
    ensures Get(r, "include_timestamp") == Some(timestamp) && Get(r, "enabled") == Some(JBool(true))
  {
    var r := if logPath.Some? then
               [("level", level), ("format_style", formatStyle), ("log_file", JStr(logPath.value)),
                ("include_timestamp", timestamp), ("enabled", JBool(true))]
             else
               [("level", level), ("format_style", formatStyle),
                ("include_timestamp", timestamp), ("enabled", JBool(true))];
    KeysAt(r);
    GetAt(r, 0);
    GetAt(r, 1);
    GetAt(r, |r| - 2);
    GetAt(r, |r| - 1);
    assert logPath.Some? ==> Get(r, "log_file") == Some(JStr(logPath.value)) by {
      if logPath.Some? {
        GetAt(r, 2);
      }
    }
    assert logPath.None? ==> Get(r, "log_file") == None by {
      if logPath.None? {
        NoKey(r, "log_file");
      }
    }
    r
  }

  /** The logging section of a configuration, `{}` when absent. */
  function LoggingSection(config: Fields): Json {
    GetOr(config, "logging", JObj([]))
  }

  /** Whether the logging section switches logging off (`enabled` is falsy; absent means on). */
  predicate LoggingDisabled(section: Fields) {
    !Truthy(GetOr(section, "enabled", JBool(true)))
  }

  /**
    `extract_logging_config`: `{"enabled": False}` when logging is switched
    off; otherwise level, format style, the log file when there is one, the
    timestamp flag and `enabled: True`, in that order.
   */
  function ExtractLoggingConfig(config: Fields, env: Env): (r: Result<Fields>)
    ensures !LoggingSection(config).JObj? ==> r == Err(NoAttribute(LoggingSection(config), "get"))
    ensures LoggingSection(config).JObj? && LoggingDisabled(LoggingSection(config).fields) ==>
              r == Ok([("enabled", JBool(false))])
    ensures r.Ok? && !LoggingDisabled(LoggingSection(config).fields) ==>
              Get(r.value, "enabled") == Some(JBool(true))
              && Get(r.value, "include_timestamp")
                 == Some(GetOr(LoggingSection(config).fields, "include_timestamp", JBool(true)))
  {
    var section := LoggingSection(config);
    if !section.JObj? then Err(NoAttribute(section, "get"))
    else if LoggingDisabled(section.fields) then Ok([("enabled", JBool(false))])
    else
      var overrides := GetOr(section.fields, "env_overrides", JObj([]));
      var level :- Setting(section.fields, overrides, "level", JStr("INFO"), env);
      var formatStyle :- Setting(section.fields, overrides, "format_style", JStr("emoji"), env);
      var logFile :- Setting(section.fields, overrides, "log_file", JNull, env);
      var logPath :- LogFilePath(logFile);
      Ok(Processed(level, formatStyle, logPath, GetOr(section.fields, "include_timestamp", JBool(true))))
  }

  // ---------------------------------------------------------------------
  // ConfigurableAgent._load_intelligence_config

  /** A value written `${NAME}`. */
  predicate IsEnvRef(v: Json) {
    v.JStr? && "${" <= v.s && EndsWith(v.s, "}")
  }

  /** The NAME of `${NAME}`: `value[2:-1]`. */
  function EnvRefName(v: Json): string
    requires IsEnvRef(v)
  {
    assert v.s[1] == '{';
    assert v.s[|v.s| - 1] == v.s[|v.s| - 1..][0] == '}';
    v.s[2..|v.s| - 1]
  }

  /** A key whose value is an API key: ending in `_key`, or `api_key` itself. */
  predicate IsKeyName(key: string) {
    EndsWith(key, "_key") || key == "api_key"
  }

  /**
    What one entry of the intelligence section becomes: a `${NAME}` value is
    replaced by the variable's value, or None when it is unset; an API key
    takes the variable named after the upper-cased key, or else, when the
    engine (upper-cased) is not empty, the variable `<ENGINE>_API_KEY`, and
    keeps its configured value when the chosen variable is unset. An engine
    that is not text cannot be upper-cased. Other entries are kept.
   */
  function EntryValue(key: string, value: Json, engine: Json, env: Env): (r: Result<Json>)
    ensures IsEnvRef(value) ==>
              r == Ok(if EnvRefName(value) in env then JStr(env[EnvRefName(value)]) else JNull)
    ensures !IsEnvRef(value) && !IsKeyName(key) ==> r == Ok(value)
    ensures !IsEnvRef(value) && IsKeyName(key) && Upper(key) in env ==> r == Ok(JStr(env[Upper(key)]))
    ensures !IsEnvRef(value) && IsKeyName(key) && Upper(key) !in env && engine.JStr? ==>
              var fallback := Upper(engine.s) + "_API_KEY";
              r == Ok(if engine.s != "" && fallback in env then JStr(env[fallback]) else value)
    ensures r.Err? <==> !IsEnvRef(value) && IsKeyName(key) && Upper(key) !in env && !engine.JStr?
  {
    if IsEnvRef(value) then
      var name := EnvRefName(value);
      Ok(if name in env then JStr(env[name]) else JNull)
    else if IsKeyName(key) then
      var direct := Upper(key);
      if direct in env then Ok(JStr(env[direct]))
      else if !engine.JStr? then Err(NoAttribute(engine, "upper"))
      else
        var upperEngine := Upper(engine.s);
        var chosen := if upperEngine != "" then upperEngine + "_API_KEY" else direct;
        Ok(if chosen in env then JStr(env[chosen]) else value)
    else Ok(value)
  }

  /** The engine as an entry sees it: the current `engine` value, "" when absent. */
  function Engine(cfg: Fields): Json {
    GetOr(cfg, "engine", JStr(""))
  }

  /** One turn of the loop: the entry at position i is replaced by what it becomes. */
  function ResolveStep(cfg: Fields, i: nat, env: Env): (r: Result<Fields>)
    requires i < |cfg|
    ensures r.Ok? ==> |r.value| == |cfg| && r.value[i].0 == cfg[i].0
                      && forall j :: 0 <= j < |cfg| && j != i ==> r.value[j] == cfg[j]
  {
    var v :- EntryValue(cfg[i].0, cfg[i].1, Engine(cfg), env);
    Ok(cfg[i := (cfg[i].0, v)])
  }

  /** The loop from position i on. */
  function ResolveFrom(cfg: Fields, i: nat, env: Env): Result<Fields>
    decreases |cfg| - i
  {
    if i >= |cfg| then Ok(cfg)
    else
      var next :- ResolveStep(cfg, i, env);
      ResolveFrom(next, i + 1, env)
  }

  /** The intelligence section of a configuration, `{}` when absent. */
  function IntelligenceSection(config: Fields): Json {
    GetOr(config, "intelligence", JObj([]))
  }

  /**
    `_load_intelligence_config` as a function of the configuration and the
    environment: a copy of the section with every entry resolved in order.
    A list can be copied but has no `items`; other values have no `copy`.
   */
  function LoadIntelligence(config: Fields, env: Env): (r: Result<Fields>)
    ensures IntelligenceSection(config).JArr? ==> r == Err(NoAttribute(IntelligenceSection(config), "items"))
    ensures !IntelligenceSection(config).JObj? && !IntelligenceSection(config).JArr? ==>
              r == Err(NoAttribute(IntelligenceSection(config), "copy"))
    ensures r.Ok? ==> IntelligenceSection(config).JObj?
                      && Keys(r.value) == Keys(IntelligenceSection(config).fields)
  {
    var section := IntelligenceSection(config);
    match section
    case JObj(fs) =>
      var r := ResolveFrom(fs, 0, env);
      ResolveKeepsKeys(fs, 0, env);
      assert r.Ok? ==> Keys(r.value) == Keys(fs) by {
        if r.Ok? {
          SameKeys(r.value, fs);
        }
      }
      r
    case JArr(_) => Err(NoAttribute(section, "items"))
    case _ => Err(NoAttribute(section, "copy"))
  }

  // ---------------------------------------------------------------------
  // ConfigurableAgent.handle_message

  /** `for x in v`: the items a value yields when iterated. */
  function Iterate(v: Json): (r: Result<seq<Json>>)
    ensures v.JArr? ==> r == Ok(v.items)
    ensures v.JObj? ==> r.Ok? && |r.value| == |v.fields|
                        && forall i :: 0 <= i < |v.fields| ==> r.value[i] == JStr(v.fields[i].0)
    ensures v.JStr? ==> r.Ok? && |r.value| == |v.s| && forall i :: 0 <= i < |v.s| ==> r.value[i] == JStr([v.s[i]])
    ensures r.Err? <==> !v.JArr? && !v.JObj? && !v.JStr?
    ensures r.Err? ==> r.error == TypeError("'" + TypeName(v) + "' object is not iterable")
  {
    match v
    case JArr(items) => Ok(items)
    case JObj(fs) => Ok(seq(|fs|, i requires 0 <= i < |fs| => JStr(fs[i].0)))
    case JStr(s) => Ok(seq(|s|, i requires 0 <= i < |s| => JStr([s[i]])))
    case _ => Err(TypeError("'" + TypeName(v) + "' object is not iterable"))
  }

  /** `capability["name"]` */
  function NameOf(capability: Json): Result<Json> {
    Index(capability, "name")
  }

  /** Every capability from position `lo` up to `hi` has a name, and none is named `task`. */
  predicate Misses(caps: seq<Json>, lo: nat, hi: int, task: Json) {
    forall j :: lo <= j < hi && j < |caps| ==> NameOf(caps[j]).Ok? && NameOf(caps[j]).value != task
  }

  /**
    The first capability from position i on whose name equals the task, or
    None; looking at a capability without a name raises.
   */
  function MatchFrom(caps: seq<Json>, i: nat, task: Json): (r: Result<Option<nat>>)
    decreases |caps| - i
    ensures r.Ok? && r.value.Some? ==>
              i <= r.value.value < |caps| && NameOf(caps[r.value.value]) == Ok(task)
              && Misses(caps, i, r.value.value, task)
    ensures r == Ok(None) ==>
              Misses(caps, i, |caps|, task)
    ensures r.Err? ==>
              exists j :: i <= j < |caps| && NameOf(caps[j]).Err? && r.error == NameOf(caps[j]).error
                          && Misses(caps, i, j, task)
  {
    if i >= |caps| then Ok(None)
    else
      var name :- NameOf(caps[i]);
      if name == task then Ok(Some(i)) else MatchFrom(caps, i + 1, task)
  }

  /** `[cap["name"] for cap in capabilities]` */
  function NamesOf(caps: seq<Json>): (r: Result<seq<Json>>)
    ensures r.Ok? ==> |r.value| == |caps| && forall j :: 0 <= j < |caps| ==> NameOf(caps[j]) == Ok(r.value[j])
    ensures (forall j :: 0 <= j < |caps| ==> NameOf(caps[j]).Ok?) ==> r.Ok?
  {
    if caps == [] then Ok([])
    else
      var name :- NameOf(caps[0]);
      var rest :- NamesOf(caps[1..]);
      assert forall j :: 1 <= j < |caps| ==> caps[j] == caps[1..][j - 1];
      Ok([name] + rest)
  }

  const AvailablePrefix: string := ". Available tasks: "
  const ExecutedPrefix: string := "Executed capability '"
  const WithMessage: string := "' with message: "

  /** The default `_handle_capability`: a response naming the capability and showing the message. */
  function CapabilityReply(name: Json, message: Fields): Json {
    JObj([("response", JStr(ExecutedPrefix + PyStr(name) + WithMessage + PyRepr(JObj(message))))])
  }

  /** The reply when no capability has the task's name. */
  function UnknownTaskReply(task: Json, names: seq<Json>): Json {
    JObj([("error", JStr("Unknown task: " + PyStr(task) + AvailablePrefix + PyRepr(JArr(names))))])
  }

  /** `handle_message` as a function of the capabilities and the message. */
  function Respond(capabilities: Json, message: Fields): (r: Result<Json>)
    ensures Iterate(capabilities).Err? ==> r == Err(Iterate(capabilities).error)
    ensures r.Ok? ==>
              Iterate(capabilities).Ok?
              && var caps := Iterate(capabilities).value;
                 var task := GetOr(message, "task", JNull);
                 || (exists k :: 0 <= k < |caps| && NameOf(caps[k]) == Ok(task)
                                && Misses(caps, 0, k, task)
                                && r.value == CapabilityReply(task, message))
                 || (Misses(caps, 0, |caps|, task)
                     && NamesOf(caps).Ok? && r.value == UnknownTaskReply(task, NamesOf(caps).value))
    ensures r.Err? && Iterate(capabilities).Ok? ==>
              var caps := Iterate(capabilities).value;
              var task := GetOr(message, "task", JNull);
              exists j :: 0 <= j < |caps| && NameOf(caps[j]).Err? && r.error == NameOf(caps[j]).error
                          && Misses(caps, 0, j, task)
  {
    var caps :- Iterate(capabilities);
    var task := GetOr(message, "task", JNull);
    var found :- MatchFrom(caps, 0, task);
    match found
    case Some(k) => Ok(CapabilityReply(task, message))
    case None =>
      Ok(UnknownTaskReply(task, NamesOf(caps).value))
  }

  /**
    An agent built from a configuration dict. Setting up logging and loading
    the intelligence section can raise; the results (or the exception) are
    kept in `logging` and `intelligence`.
   */
  class ConfigurableAgent {
    const config: Fields
    const env: Env
    const capabilities: Json
    var logging: Result<Fields>
    var intelligence: Result<Fields>

    constructor (config: Fields, env: Env)
      ensures this.config == config && this.env == env
      ensures capabilities == GetOr(config, "capabilities", JArr([]))
      ensures logging == ExtractLoggingConfig(config, env)
      ensures logging.Ok? ==> intelligence == LoadIntelligence(config, env)
      ensures logging.Err? ==> intelligence == Err(logging.error)
    {
      this.config := config;
      this.env := env;
      capabilities := GetOr(config, "capabilities", JArr([]));
      logging := ExtractLoggingConfig(config, env);
      new;
      if logging.Err? {
        intelligence := Err(logging.error);
      } else {
        var loaded := LoadIntelligenceConfig();
        intelligence := loaded;
      }
    }

    /**
      `_load_intelligence_config`: copies the section and resolves its entries
      one by one, in order, each seeing the entries before it already resolved.
     */
    method LoadIntelligenceConfig() returns (r: Result<Fields>)
      ensures r == LoadIntelligence(config, env)
    {
      var section := IntelligenceSection(config);
      if section.JArr? {
        return Err(NoAttribute(section, "items"));
      } else if !section.JObj? {
        return Err(NoAttribute(section, "copy"));
      }
      var cfg := section.fields;
      var i := 0;
      while i < |cfg|
        invariant 0 <= i <= |cfg|
        invariant ResolveFrom(cfg, i, env) == ResolveFrom(section.fields, 0, env)
      {
        ghost var before := cfg;
        var key := cfg[i].0;
        var value := cfg[i].1;
        if IsEnvRef(value) {
          var name := EnvRefName(value);
          cfg := cfg[i := (key, if name in env then JStr(env[name]) else JNull)];
        } else if IsKeyName(key) {
          var envVar := Upper(key);
          if envVar !in env {
            var engine := Engine(cfg);
            if !engine.JStr? {
              return Err(NoAttribute(engine, "upper"));
            }
            if Upper(engine.s) != "" {
              envVar := Upper(engine.s) + "_API_KEY";
            }
          }
          cfg := cfg[i := (key, if envVar in env then JStr(env[envVar]) else value)];
        } else {
          assert cfg[i := (key, value)] == cfg;
        }
        assert ResolveStep(before, i, env) == Ok(cfg);
        i := i + 1;
      }
      return Ok(cfg);
    }

    /**
      `handle_message`: the first capability named like the task handles the
      message; with none, the reply lists every capability name in order.
     */
    method HandleMessage(message: Fields) returns (r: Result<Json>)
      requires logging.Ok? && intelligence.Ok?
      ensures r == Respond(capabilities, message)
    {
      var caps :- Iterate(capabilities);
      var task := GetOr(message, "task", JNull);
      var i := 0;
      while i < |caps|
        invariant 0 <= i <= |caps|
        invariant MatchFrom(caps, 0, task) == MatchFrom(caps, i, task)
      {
        var name :- NameOf(caps[i]);
        if name == task {
          return Ok(CapabilityReply(task, message));
        }
        i := i + 1;
      }
      var names := NamesOf(caps).value;
      return Ok(UnknownTaskReply(task, names));
    }
  }

  // ---------------------------------------------------------------------
  // Properties of the logging settings

  /** With no logging section, or an empty one, the defaults come out and the environment is not read. */
  lemma LoggingDefaults(env: Env)
    ensures var defaults := Processed(JStr("INFO"), JStr("emoji"), None, JBool(true));
            ExtractLoggingConfig([], env) == Ok(defaults)
            && ExtractLoggingConfig([("logging", JObj([]))], env) == Ok(defaults)
  {
    assert [("logging", JObj([]))][1..] == [];
    assert LoggingSection([]) == LoggingSection([("logging", JObj([]))]) == JObj([]);
  }

  /**
    An enabled configuration is the processed form of the three settings as
    resolved (the configured value or its override), the log file's path and
    the timestamp flag.
   */
  lemma LoggingShape(config: Fields, env: Env)
    requires ExtractLoggingConfig(config, env).Ok?
    requires !LoggingDisabled(LoggingSection(config).fields)
    ensures var section := LoggingSection(config).fields;
            var overrides := GetOr(section, "env_overrides", JObj([]));
            var logFile := Setting(section, overrides, "log_file", JNull, env);
            logFile.Ok? && LogFilePath(logFile.value).Ok?
            && ExtractLoggingConfig(config, env).value
               == Processed(Setting(section, overrides, "level", JStr("INFO"), env).value,
                            Setting(section, overrides, "format_style", JStr("emoji"), env).value,
                            LogFilePath(logFile.value).value,
                            GetOr(section, "include_timestamp", JBool(true)))
  {
  }

  /**
    The environment is read only through `env_overrides`: without overrides
    for the three settings, two environments give the same configuration.
   */
  lemma EnvReadOnlyThroughOverrides(config: Fields, env1: Env, env2: Env)
    requires var section := LoggingSection(config);
             section.JObj? ==>
               var overrides := GetOr(section.fields, "env_overrides", JObj([]));
               overrides.JObj? && !HasKey(overrides.fields, "level")
               && !HasKey(overrides.fields, "format_style") && !HasKey(overrides.fields, "log_file")
    ensures ExtractLoggingConfig(config, env1) == ExtractLoggingConfig(config, env2)
  {
  }

  /** A named variable that is set replaces the configured level. */
  lemma LevelOverride(config: Fields, env: Env, name: string)
    requires LoggingSection(config).JObj?
    requires !LoggingDisabled(LoggingSection(config).fields)
    requires GetOr(LoggingSection(config).fields, "env_overrides", JObj([])).JObj?
    requires Get(GetOr(LoggingSection(config).fields, "env_overrides", JObj([])).fields, "level") == Some(JStr(name))
    requires name in env
    ensures ExtractLoggingConfig(config, env).Ok? ==> Get(ExtractLoggingConfig(config, env).value, "level") == Some(JStr(env[name]))
  {
    if ExtractLoggingConfig(config, env).Ok? {
      LoggingShape(config, env);
    }
  }

  // ---------------------------------------------------------------------
  // Properties of the intelligence settings

  /** Changing the value at position i: a lookup sees it only when i is the key's first position. */
  lemma {:induction false} GetUpdate(fs: Fields, i: nat, v: Json, k: string)
    requires i < |fs|
    ensures (fs[i].0 == k && forall j :: 0 <= j < i ==> fs[j].0 != k) ==>
              Get(fs, k) == Some(fs[i].1) && Get(fs[i := (fs[i].0, v)], k) == Some(v)
    ensures !(fs[i].0 == k && forall j :: 0 <= j < i ==> fs[j].0 != k) ==>
              Get(fs[i := (fs[i].0, v)], k) == Get(fs, k)
  {
    var u := fs[i := (fs[i].0, v)];
    if i == 0 {
      assert u[1..] == fs[1..];
    } else {
      assert u[1..] == fs[1..][i - 1 := (fs[i].0, v)];
      assert u[0] == fs[0];
      GetUpdate(fs[1..], i - 1, v, k);
      if fs[0].0 != k {
        assert forall j :: 0 <= j < i - 1 ==> fs[1..][j] == fs[j + 1];
      }
    }
  }

  /** Resolving never adds, drops or moves a key, and leaves the entries before i alone. */
  lemma {:induction false} ResolveKeepsKeys(cfg: Fields, i: nat, env: Env)
    ensures var r := ResolveFrom(cfg, i, env);
            r.Ok? ==> |r.value| == |cfg|
                      && (forall j :: 0 <= j < |cfg| ==> r.value[j].0 == cfg[j].0)
                      && (forall j :: 0 <= j < i && j < |cfg| ==> r.value[j] == cfg[j])
    decreases |cfg| - i
  {
    if i < |cfg| && ResolveStep(cfg, i, env).Ok? {
      ResolveKeepsKeys(ResolveStep(cfg, i, env).value, i + 1, env);
    }
  }

  /** Two dicts whose entries carry the same keys position by position have the same keys. */
  lemma {:induction false} SameKeys(a: Fields, b: Fields)
    requires |a| == |b| && forall j :: 0 <= j < |a| ==> a[j].0 == b[j].0
    ensures Keys(a) == Keys(b)
  {
    if a != [] {
      SameKeys(a[1..], b[1..]);
    }
  }

  /**
    When the engine is not itself a `${NAME}` reference every entry sees the
    configured engine, so the loop from position i on resolves each remaining
    entry on its own: it succeeds exactly when every remaining entry does, and
    then each holds what it becomes.
   */
  lemma {:induction false} ResolvedEntries(cfg: Fields, i: nat, env: Env)
    requires !IsEnvRef(Engine(cfg))
    ensures var r := ResolveFrom(cfg, i, env);
            (r.Ok? <==> forall j :: i <= j < |cfg| ==> EntryValue(cfg[j].0, cfg[j].1, Engine(cfg), env).Ok?)
            && (r.Ok? ==> |r.value| == |cfg|
                          && forall j :: 0 <= j < |cfg| ==>
                               r.value[j] == if j < i then cfg[j]
                                             else (cfg[j].0, EntryValue(cfg[j].0, cfg[j].1, Engine(cfg), env).value))
    decreases |cfg| - i
  {
    if i < |cfg| {
      var engine := Engine(cfg);
      var step := EntryValue(cfg[i].0, cfg[i].1, engine, env);
      if step.Ok? {
        var next := cfg[i := (cfg[i].0, step.value)];
        StepKeepsEngine(cfg, i, env);
        assert ResolveFrom(cfg, i, env) == ResolveFrom(next, i + 1, env);
        ResolvedEntries(next, i + 1, env);
        assert forall j :: 0 <= j < |cfg| && j != i ==> next[j] == cfg[j];
        assert (forall j :: i + 1 <= j < |next| ==> EntryValue(next[j].0, next[j].1, Engine(next), env).Ok?)
           <==> (forall j :: i <= j < |cfg| ==> EntryValue(cfg[j].0, cfg[j].1, engine, env).Ok?);
      } else {
        assert ResolveStep(cfg, i, env).Err?;
      }
    }
  }

  /** One step on a section whose engine is not a `${NAME}` reference leaves the engine as it was. */
  lemma StepKeepsEngine(cfg: Fields, i: nat, env: Env)
    requires i < |cfg| && !IsEnvRef(Engine(cfg))
    requires EntryValue(cfg[i].0, cfg[i].1, Engine(cfg), env).Ok?
    ensures var next := cfg[i := (cfg[i].0, EntryValue(cfg[i].0, cfg[i].1, Engine(cfg), env).value)];
            ResolveStep(cfg, i, env) == Ok(next) && Engine(next) == Engine(cfg)
  {
    var v := EntryValue(cfg[i].0, cfg[i].1, Engine(cfg), env).value;
    GetUpdate(cfg, i, v, "engine");
    if cfg[i].0 == "engine" && forall j :: 0 <= j < i ==> cfg[j].0 != "engine" {
      assert !EndsWith("engine", "_key");
      assert v == cfg[i].1;
    }
  }

  /** The loaded section entry by entry, for an engine that is not a `${NAME}` reference. */
  lemma LoadedEntries(config: Fields, env: Env)
    requires IntelligenceSection(config).JObj?
    requires !IsEnvRef(Engine(IntelligenceSection(config).fields))
    ensures var fs := IntelligenceSection(config).fields;
            var r := LoadIntelligence(config, env);
            (r.Ok? <==> forall j :: 0 <= j < |fs| ==> EntryValue(fs[j].0, fs[j].1, Engine(fs), env).Ok?)
            && (r.Ok? ==> |r.value| == |fs|
                          && forall j :: 0 <= j < |fs| ==>
                               r.value[j] == (fs[j].0, EntryValue(fs[j].0, fs[j].1, Engine(fs), env).value))
  {
    ResolvedEntries(IntelligenceSection(config).fields, 0, env);
  }

  /** `engine` itself is never an API key name. */
  lemma EngineIsNoKeyName()
    ensures !IsKeyName("engine")
  {
    assert "engine"[2..] != "_key" by {
      assert "engine"[2..][0] != "_key"[0];
    }
  }

  /**
    Entries are resolved in order and the engine is read from the dict being
    rewritten: an engine written `${NAME}` with NAME unset has become None by
    the time a later API key without its own variable needs it, and None
    cannot be upper-cased.
   */
  lemma EngineResolvedFirst(ref: string, key: string, value: Json, env: Env)
    requires IsEnvRef(JStr(ref)) && EnvRefName(JStr(ref)) !in env
    requires IsKeyName(key) && !IsEnvRef(value) && Upper(key) !in env
    ensures LoadIntelligence([("intelligence", JObj([("engine", JStr(ref)), (key, value)]))], env)
            == Err(NoAttribute(JNull, "upper"))
  {
    var cfg := [("engine", JStr(ref)), (key, value)];
    var first := [("engine", JNull), (key, value)];
    EngineIsNoKeyName();
    assert cfg[0 := ("engine", JNull)] == first;
    assert ResolveStep(cfg, 0, env) == Ok(first);
    assert Engine(first) == JNull;
    assert ResolveStep(first, 1, env) == Err(NoAttribute(JNull, "upper"));
    assert ResolveFrom(first, 1, env) == ResolveStep(first, 1, env);
    assert ResolveFrom(cfg, 0, env) == ResolveFrom(first, 1, env);
    assert IntelligenceSection([("intelligence", JObj(cfg))]) == JObj(cfg);
  }

  /**
    Listed after the API key, the same engine is still its literal text when
    the key is resolved, so the key falls back to `<TEXT>_API_KEY`.
   */
  lemma EngineResolvedLast(ref: string, key: string, value: Json, env: Env)
    requires IsEnvRef(JStr(ref)) && EnvRefName(JStr(ref)) !in env
    requires IsKeyName(key) && !IsEnvRef(value) && Upper(key) !in env
    ensures var fallback := Upper(ref) + "_API_KEY";
            LoadIntelligence([("intelligence", JObj([(key, value), ("engine", JStr(ref))]))], env)
            == Ok([(key, if fallback in env then JStr(env[fallback]) else value), ("engine", JNull)])
  {
    var cfg := [(key, value), ("engine", JStr(ref))];
    var v := if Upper(ref) + "_API_KEY" in env then JStr(env[Upper(ref) + "_API_KEY"]) else value;
    EngineIsNoKeyName();
    assert key != "engine";
    assert Engine(cfg) == JStr(ref) by {
      assert cfg[1..] == [("engine", JStr(ref))];
      assert Get(cfg, "engine") == Get(cfg[1..], "engine");
    }
    assert Upper(ref) != "";
    assert EntryValue(key, value, JStr(ref), env) == Ok(v);
    var next := cfg[0 := (key, v)];
    assert ResolveStep(cfg, 0, env) == Ok(next);
    var done := next[1 := ("engine", JNull)];
    assert ResolveStep(next, 1, env) == Ok(done);
    assert ResolveFrom(done, 2, env) == Ok(done);
    assert ResolveFrom(next, 1, env) == ResolveFrom(done, 2, env);
    assert ResolveFrom(cfg, 0, env) == ResolveFrom(next, 1, env);
    assert IntelligenceSection([("intelligence", JObj(cfg))]) == JObj(cfg);
    assert done == [(key, v), ("engine", JNull)];
  }

  // ---------------------------------------------------------------------
  // Properties of message dispatch

  /** A capability named like the task, with only named capabilities before it, is found. */
  lemma {:induction false} MatchFound(caps: seq<Json>, i: nat, task: Json, k: nat)
    requires i <= k < |caps| && NameOf(caps[k]) == Ok(task)
    requires forall j :: i <= j < k ==> NameOf(caps[j]).Ok?
    ensures MatchFrom(caps, i, task).Ok? && MatchFrom(caps, i, task).value.Some?
    ensures MatchFrom(caps, i, task).value.value <= k
    decreases k - i
  {
    if i < k && NameOf(caps[i]).value != task {
      MatchFound(caps, i + 1, task, k);
    }
  }

  /** A capability without a name, met before any match, makes the search raise its error. */
  lemma {:induction false} MatchRaises(caps: seq<Json>, i: nat, task: Json, j: nat)
    requires i <= j < |caps| && NameOf(caps[j]).Err?
    requires Misses(caps, i, j, task)
    ensures MatchFrom(caps, i, task) == Err(NameOf(caps[j]).error)
    decreases j - i
  {
    if i < j {
      MatchRaises(caps, i + 1, task, j);
    } else {
      assert NameOf(caps[i]).IsFailure();
    }
  }

  /**
    Dispatch answers with the capability's response when some capability is
    named like the task and every one before it has a name; with no such
    capability and all named, it answers "Unknown task" listing every name.
   */
  lemma RespondCases(capabilities: Json, message: Fields)
    requires Iterate(capabilities).Ok?
    ensures var caps := Iterate(capabilities).value;
            var task := GetOr(message, "task", JNull);
            (exists k :: 0 <= k < |caps| && NameOf(caps[k]) == Ok(task)
                         && forall j :: 0 <= j < k ==> NameOf(caps[j]).Ok?)
            ==> Respond(capabilities, message) == Ok(CapabilityReply(task, message))
    ensures var caps := Iterate(capabilities).value;
            var task := GetOr(message, "task", JNull);
            Misses(caps, 0, |caps|, task)
            ==> NamesOf(caps).Ok? && Respond(capabilities, message) == Ok(UnknownTaskReply(task, NamesOf(caps).value))
  {
    var caps := Iterate(capabilities).value;
    var task := GetOr(message, "task", JNull);
    if exists k :: 0 <= k < |caps| && NameOf(caps[k]) == Ok(task) && forall j :: 0 <= j < k ==> NameOf(caps[j]).Ok? {
      var k :| 0 <= k < |caps| && NameOf(caps[k]) == Ok(task) && forall j :: 0 <= j < k ==> NameOf(caps[j]).Ok?;
      MatchFound(caps, 0, task, k);
    }
  }

  /**
    A capability without a name, with every capability before it named and
    none of them matching, makes dispatch raise that capability's error.
   */
  lemma RespondRaises(capabilities: Json, message: Fields, j: nat)
    requires Iterate(capabilities).Ok?
    requires var caps := Iterate(capabilities).value;
             var task := GetOr(message, "task", JNull);
             j < |caps| && NameOf(caps[j]).Err?
             && Misses(caps, 0, j, task)
    ensures Respond(capabilities, message) == Err(NameOf(Iterate(capabilities).value[j]).error)
  {
    MatchRaises(Iterate(capabilities).value, 0, GetOr(message, "task", JNull), j);
  }

  /** A nameless capability ahead of a matching one still raises: `[{}, {"name": "t"}]` on task "t". */
  lemma UnnamedBeforeMatchRaises()
    ensures Respond(JArr([JObj([]), JObj([("name", JStr("t"))])]), [("task", JStr("t"))])
            == Err(KeyError("name"))
  {
    RespondRaises(JArr([JObj([]), JObj([("name", JStr("t"))])]), [("task", JStr("t"))], 0);
  }

  /**
    Capabilities given as a non-empty dict or string are iterated as strings
    (the keys, or the characters), and indexing a string by "name" raises
    TypeError, so every message raises.
   */
  lemma DictOrTextCapabilitiesRaise(capabilities: Json, message: Fields)
    requires (capabilities.JObj? && capabilities.fields != []) || (capabilities.JStr? && capabilities.s != [])
    ensures Respond(capabilities, message) == Err(TypeError("string indices must be integers, not 'str'"))
  {
    var caps := Iterate(capabilities).value;
    assert caps[0].JStr?;
    assert MatchFrom(caps, 0, GetOr(message, "task", JNull)) == Err(TypeError("string indices must be integers, not 'str'"));
  }

  /** Capabilities that cannot be iterated make every message raise TypeError. */
  lemma NotIterable(capabilities: Json, message: Fields)
    requires capabilities.JNull? || capabilities.JInt? || capabilities.JBool?
    ensures Respond(capabilities, message).Err? && Respond(capabilities, message).error.TypeError?
  {
  }
}
